=== FILE: README.md ===
# Jest result normalisation, modelled in Dafny

This project models the Jest side of the `mcp-testing` server. The server
runs a project's Jest suite with `--json` and turns the report into a
normalised `TestResults`: the passes, the failures with the detail recovered
from their messages, and a summary. The model covers four parts:

- **Reading the report** (`jest/src/core/resultParser.ts`):
  - Cutting the JSON out of console output that may hold other text.
  - Walking the files and their assertions in order.
  - Building each test's full name.
  - Recovering a failure's line from a stack frame, and its matcher name
    and `Expected`/`Received` values from the message text.
  - Cleaning the message: SGR colour codes are removed, CRLF becomes LF,
    and the ends are trimmed.
  - Summing the files' run times.
- **Package manager detection** (`jest/src/core/packageManager.ts`):
  - The lockfile order.
  - The run and exec commands of each manager.
- **Project detection** (`jest/src/core/jestConfig.ts`):
  - The Jest configuration file, or a `jest` field in `package.json`.
  - Workspaces from `package.json`, or else from the `packages:` list of
    `pnpm-workspace.yaml`.
- **Running Jest** (`jest/src/testRunner.ts`):
  - The Jest argument list in both modes.
  - The shell-less command line and the command string reported with the
    results.
  - How the child's output and exit code are collected.
  - Where the JSON report is looked for.

Each regular expression of the source is modelled operationally, in the
order a backtracking engine tries alternatives. Module `Search` holds the
two search orders:

- `Leftmost`: an unanchored search tries start positions from left to right.
- `Rightmost`: a greedy quantifier gives characters back from right to left.

`Text` defines the JavaScript character classes these searches use: `\s`,
`\d`, `\w`, `.` and the line terminators. The file system, `JSON.parse` and
the child process are oracles, passed in as function parameters:

- `Host.FileSystem`: a path's contents, or `None` when nothing is there.
- `ResultParser.ParseJestOutput` and `TestRunner.RunJestTests` take a
  `decode` function for `JSON.parse`. It includes the reads of the
  report's fields and gives `None` where either would throw.
- `JestConfig.PackageJsonParser`: the same for `package.json`.
- `TestRunner.Spawner`: the output a child writes before its first `close`
  or `error` event, and that event.

### Where the code differs from what a reader might expect

The model follows the code:

- **Expected/Received.** A reader might expect the value to come from the
  first line that starts with `Expected` or `Received`. The code searches
  without an anchor, so a label in the middle of a line is found too. The `\s*` after
  the label may also cross a line break, so the value can come from the
  next line (`FailureDetail.LabelledAt`).
- **Escape codes.** The comment on `cleanErrorMessage` speaks of
  "removing ANSI codes" (`jest/src/core/resultParser.ts:111`, `:116`). Read
  broadly, that means every `ESC [ … letter` sequence. The code removes
  only SGR sequences `ESC [ [0-9;]* m`, and only in one pass
  (`FailureDetail.StripSgrSinglePass`).
- **Summary counters.** A reader might expect `passes + failures ≤ total`
  and "success implies no failures" to hold of the summary. The code does
  not enforce either: it copies the report's counters as they are
  (`ResultParser.SummaryNotReconciled`). The bound that does hold is
  against the assertions present in the report (`ResultParser.ListLengths`).
- **Empty workspaces array.** The workspaces rule is "`package.json`, else
  `pnpm-workspace.yaml`". An empty `workspaces` array in `package.json`
  still counts as present: the YAML file is then not read, and the project
  is not a monorepo (`JestConfig.WorkspacesArrayWins`).

## Model

| member | source | states |
|---|---|---|
| FailureDetail.EscapedPathIsLiteral | jest/src/core/resultParser.ts:68-69 | Read back as a pattern of literal atoms, the escaped file path matches exactly the path, so no character of a path acts as regex syntax |
| FailureDetail.ExtractLineNumber | jest/src/core/resultParser.ts:66-75 | The line is absent exactly when `file:digits:digit` occurs nowhere; otherwise the leftmost occurrence decides it |
| FailureDetail.LineFromStackFrame | jest/src/core/resultParser.ts:66-75 | A frame `file:line:column` preceded by text without the path's first character gives back exactly `line` |
| FailureDetail.StackFrameExample | jest/src/core/resultParser.ts:67-72 | An `at /project/src/app.test.js:42:10` frame gives line 42 |
| FailureDetail.ExtractMatcherName | jest/src/core/resultParser.ts:89-93 | A found matcher name is `to` followed by word characters; none is found exactly when the lazy `expect\(.*?\)\.(to\w+)` matches at no position |
| FailureDetail.MatcherLeftmost | jest/src/core/resultParser.ts:89-93 | When the call pattern first matches at a position, the matcher name is the one that match captures |
| FailureDetail.MatcherFromCall | jest/src/core/resultParser.ts:89-93 | In `pre + expect(arg).toName + post`, the name after the call is the matcher when `pre` holds no `e`, the argument is one line free of `)`, and `post` does not start with a word character |
| FailureDetail.ExtractLabelled | jest/src/core/resultParser.ts:95-105 | A value exists exactly when some occurrence of the label has a non-line-terminator after it; the value is trimmed and holds no line break |
| FailureDetail.LabelledLeftmost | jest/src/core/resultParser.ts:95-105 | When the label first occurs at a position that has a value after it, the result is that value, trimmed |
| FailureDetail.LabelledAtFails | jest/src/core/resultParser.ts:96 | An occurrence of the label fails exactly when only line terminators follow it |
| FailureDetail.LabelledValueFromLine | jest/src/core/resultParser.ts:95-105 | `label: value` ending a line gives back the value when nothing before holds the label's first character |
| FailureDetail.ExtractExpectedReceived | jest/src/core/resultParser.ts:80-108 | The three extractions are independent; each is absent exactly when its pattern matches nowhere, and a matcher name is well formed |
| FailureDetail.ToBeFailureExample | jest/src/core/resultParser.ts:80-108 | A `toBe` failure with `Expected: 3` and `Received: 2` gives matcher `toBe`, expected `3`, received `2` |
| FailureDetail.StripSgrPlain | jest/src/core/resultParser.ts:117 | Text without an escape character is left unchanged |
| FailureDetail.StripSgrDropsCode | jest/src/core/resultParser.ts:117 | An SGR code at the front is removed and the rest is stripped as on its own |
| FailureDetail.StripPainted | jest/src/core/resultParser.ts:117 | Text wrapped in a colour code and a reset code comes back unpainted |
| FailureDetail.StripSgrSinglePass | jest/src/core/resultParser.ts:117 | Removal is one pass: a code nested inside another leaves the outer one behind |
| FailureDetail.NormalizeCrlfRoundTrip | jest/src/core/resultParser.ts:119 | Turning LF into CRLF and normalising back gives the original text |
| FailureDetail.CleanErrorMessage | jest/src/core/resultParser.ts:113-122 | The cleaned message is no longer than the original and starts and ends with no whitespace |
| FailureDetail.CleanPlainMessage | jest/src/core/resultParser.ts:113-122 | A message without escapes or carriage returns is only trimmed |
| FailureDetail.CleanPaintedCrlf | jest/src/core/resultParser.ts:113-122 | A painted message with CRLF line breaks cleans to the plain LF text |
| ResultParser.ExtractJsonFromOutput | jest/src/core/resultParser.ts:196-206 | Absent exactly when no `{` comes before a `}`; otherwise the text from the first `{` through the last `}` |
| ResultParser.ExtractJsonFramed | jest/src/core/resultParser.ts:196-206 | A JSON object framed by log text with no `{` before and no `}` after is cut out exactly |
| ResultParser.ExtractJsonIdempotent | jest/src/core/resultParser.ts:196-206 | Extracting again from an extracted text changes nothing |
| ResultParser.FullNameShape | jest/src/core/resultParser.ts:138-141 | A top-level test is named by its title; a nested one by its describe blocks joined with ` > `, then ` > ` and its title |
| JestReport.StatusOf | jest/src/core/resultParser.ts:49-58 | Decoding a status string gives `passed`, `failed` and `pending` their own constructors, and any other name a canonical `OtherStatus` |
| ResultParser.SpelledPassIsRecorded | jest/src/core/resultParser.ts:143-149 | Assertions are classified by the status string: an `OtherStatus("passed")` assertion is recorded as a pass and not as a failure |
| ResultParser.ToPass | jest/src/core/resultParser.ts:144-148 | A pass keeps the assertion's title and the file's name, and its full name is the describe path joined with the title |
| ResultParser.FailureLine | jest/src/core/resultParser.ts:158-160 | A reported location line wins; without one, the line is the one found in the stack trace, if any |
| ResultParser.ToFailure | jest/src/core/resultParser.ts:150-165 | A failure keeps title, full name and file. Its messages are joined with newlines. Line, matcher, expected and received come from that joined text, the reported location winning for the line. The stored message is the cleaned text, no longer than the joined one |
| ResultParser.ParseReport | jest/src/core/resultParser.ts:178-190 | Command and success are passed through and the four counters copied unchanged. A pass or failure is listed exactly when some assertion whose status is named `passed` or `failed` produces it, one entry per such assertion. The duration is that of the files |
| ResultParser.ParseJestOutput | jest/src/core/resultParser.ts:127-191 | The loops over files and assertions produce no result exactly when decoding fails, and otherwise the functional reading of the report |
| ResultParser.PassMembership | jest/src/core/resultParser.ts:136-148 | A pass is listed exactly when some passed assertion of some file produces it |
| ResultParser.FailureMembership | jest/src/core/resultParser.ts:136-166 | A failure is listed exactly when some failed assertion of some file produces it |
| ResultParser.ListLengths | jest/src/core/resultParser.ts:133-168 | The lists hold one entry per passed or failed assertion, so together no more than the assertions in the report |
| ResultParser.SummaryNotReconciled | jest/src/core/resultParser.ts:181-185 | A report claiming three passes with no files yields `passed = 3` and an empty pass list |
| ResultParser.DurationAppend | jest/src/core/resultParser.ts:170-176 | The duration of two runs of files is the sum of their durations |
| ResultParser.DurationNonNegative | jest/src/core/resultParser.ts:170-176 | When no file ends before it starts, the duration is not negative |
| ResultParser.DurationCountsTruthyTimes | jest/src/core/resultParser.ts:173-175 | Appending a file with a missing or zero start or end time leaves the duration unchanged; appending any other file adds its end minus its start |
| Text.Trim | jest/src/core/resultParser.ts:98 | `trim` leaves no whitespace at either end, and gives the empty string exactly when all characters are whitespace |
| Text.DecimalRoundTrip | jest/src/core/resultParser.ts:72 | `parseInt` of a line number's decimal numeral gives the number back |
| PackageManager.FirstLockfile | jest/src/core/packageManager.ts:22-29 | The manager of the first lockfile present, or npm when none is |
| PackageManager.DetectPackageManager | jest/src/core/packageManager.ts:11-29 | pnpm, yarn, bun and npm each hold exactly when their lockfile is the first one present in the listed order |
| PackageManager.DetectionDependsOnLockfilesOnly | jest/src/core/packageManager.ts:22-29 | File systems that agree on the lockfiles give the same manager |
| PackageManager.NpmLockfileIsDefault | jest/src/core/packageManager.ts:11-29 | npm is chosen exactly when none of the other managers' lockfiles is present |
| PackageManager.CommandsDistinguishManagers | jest/src/core/packageManager.ts:34-61 | Different managers have different run commands and different exec commands |
| Host.PathJoinInjective | jest/src/core/jestConfig.ts:31 | Joining one directory with two names gives the same path only for the same name |
| JestConfig.FirstConfigFile | jest/src/core/jestConfig.ts:30-35 | Absent exactly when no listed name exists; otherwise the path of the first listed name that exists |
| JestConfig.FindJestConfig | jest/src/core/jestConfig.ts:29-53 | A found configuration file wins; otherwise `package.json` is reported exactly when it parses with a truthy `jest` field |
| JestConfig.ConfigFileBeatsPackageJson | jest/src/core/jestConfig.ts:29-53 | When any configuration file exists, the result is found and is not `package.json` |
| JestConfig.PackagesBlock | jest/src/core/jestConfig.ts:83-84 | The YAML list block is absent exactly when the pattern matches at no position |
| JestConfig.TailStart | jest/src/core/jestConfig.ts:87 | The trailing quote-and-whitespace match starts at the first position from which it reaches the end |
| JestConfig.StripItemText | jest/src/core/jestConfig.ts:87 | Stripping `<indent>- <glob>` gives back the glob |
| JestConfig.StripQuotedItem | jest/src/core/jestConfig.ts:87 | Stripping `<indent>- 'glob'` or `<indent>- "glob"` removes the dash, the whitespace and both quotes, giving back the glob |
| JestConfig.StrippedItems | jest/src/core/jestConfig.ts:85-88 | No item left after stripping is empty |
| JestConfig.StrippedItemsMembers | jest/src/core/jestConfig.ts:85-88 | A string is kept exactly when it is non-empty and some line strips to it; nothing is kept exactly when every line strips to the empty string |
| JestConfig.StrippedItemsAppend | jest/src/core/jestConfig.ts:85-88 | Stripping keeps line order: the items of two runs of lines are the items of the first, then those of the second |
| JestConfig.ItemsMatch | jest/src/core/jestConfig.ts:83 | The repeated list-item group runs over every `- ` line of a list up to its end |
| JestConfig.PnpmRoundTrip | jest/src/core/jestConfig.ts:79-88 | A `pnpm-workspace.yaml` listing globs under `packages:`, each bare or in single or double quotes, is read back as exactly those globs |
| JestConfig.PnpmExample | jest/src/core/jestConfig.ts:79-88 | `packages:` with `    - packages/*` gives the workspace list `packages/*` |
| JestConfig.PnpmQuotedExample | jest/src/core/jestConfig.ts:79-88 | `packages:` with `  - 'packages/*'` gives the workspace list `packages/*`, without quotes |
| JestConfig.DetectWorkspaces | jest/src/core/jestConfig.ts:58-96 | The workspaces declared in a readable `package.json` win; otherwise the YAML list, else none |
| JestConfig.DetectJestConfig | jest/src/core/jestConfig.ts:101-114 | The package manager, configuration file and workspaces are those of the three detectors. The project is a monorepo exactly when workspaces were found, and a reported configuration file exists |
| JestConfig.WorkspacesArrayWins | jest/src/core/jestConfig.ts:66-68 | A `workspaces` array is reported as it is, even when empty, and decides the monorepo flag |
| TestRunner.BuildJestArgs | jest/src/testRunner.ts:37-64 | `--json` first, then `--config file`, the pattern right after them, `-t name` and `--verbose` when given, with the extra arguments as the suffix |
| TestRunner.DebugArgs | jest/src/testRunner.ts:157-173 | `--verbose --no-coverage` first, the selection after, and the extra arguments as the suffix |
| TestRunner.DebugArgsShareSelection | jest/src/testRunner.ts:157-173 | The debug arguments are those of a non-verbose structured run, with `--json` traded for `--verbose --no-coverage` |
| TestRunner.EmptyPatternsAreAbsent | jest/src/testRunner.ts:47-53 | An empty test or name pattern gives the same arguments as leaving it out |
| TestRunner.CommandLine | jest/src/testRunner.ts:118-119 | The spawned arguments start with the exec command's words, then `jest`, then the Jest arguments |
| TestRunner.FullCommandJoinsArgv | jest/src/testRunner.ts:118-120 | The reported command is the spawned program and its arguments joined with spaces |
| TestRunner.FullCommandSplitsToArgv | jest/src/testRunner.ts:118-120 | When no Jest argument holds a space, splitting the reported command at spaces gives back what was spawned |
| TestRunner.CollectOutput | jest/src/testRunner.ts:94-104 | Standard output passes through. Error output changes exactly on a spawn error, which appends a newline and the error's message. A close with a code passes that code on, a close without one or a spawn error gives 1, so 0 means only a close with code 0 |
| TestRunner.SpawnErrorReadBack | jest/src/testRunner.ts:98-104 | A one-line spawn error message is what follows the last newline of the reported error output |
| TestRunner.JsonSource | jest/src/testRunner.ts:136-137 | Standard output's JSON is used when it has a brace pair, else standard error's; absent exactly when neither has one |
| TestRunner.TestsRequest | jest/src/testRunner.ts:112-132 | Jest is spawned in the project directory, with colour forced off, on the command line of the detected manager and arguments |
| TestRunner.RunJestTests | jest/src/testRunner.ts:111-147 | The output and exit code are the child's. Results exist exactly when a JSON text is found and decodes. The results are the parsed report, and their command is the spawned command line |
| TestRunner.ArgvOfRequest | jest/src/testRunner.ts:118-120 | The request's program and arguments rejoin into the reported command |
| TestRunner.DebugRequest | jest/src/testRunner.ts:153-182 | The debug run is spawned in the project directory, in the inherited environment, on the debug command line |
| TestRunner.RunJestDebug | jest/src/testRunner.ts:153-185 | The debug run has no results and hands back the child's output and exit code |
| TestRunner.ModesSpawnSameProgram | jest/src/testRunner.ts:175-182 | Both modes start the same program in the same directory and differ in environment |

## Left out

- The file system is an oracle and `path.join` is a plain join. The model
  does not resolve `..`, double slashes or absolute names. A file that
  exists but cannot be read counts as absent.
- `JSON.parse` is an oracle returning the fields the code reads. The model
  does not cover:
  - a `workspaces.packages` that is truthy but not an array;
  - workspace entries that are not strings;
  - report fields of the wrong type.
  All of these are cases where the code would hand on whatever JSON gave it.
- Numbers are unbounded integers. The model has no floating point: run
  times and counters are integers, and `parseInt` is exact. The code loses
  precision beyond 2^53.
- The child process is an oracle. Streaming of output chunks, the
  asynchronous promise, signals, and the value of `process.env` are not
  modelled. The two environments are only told apart by name.
- Text is a sequence of Dafny `char`s, which are Unicode scalar values,
  while JavaScript strings are UTF-16 code units. A character outside the
  Basic Multilingual Plane counts as one here and as two in JavaScript, so
  lengths can differ, and lone surrogates cannot be represented.
  `data.toString()` decoding of byte chunks is not modelled.
- The MCP server, its tool schemas and the Vitest side of the repository
  are not part of this model.
- PackageManager.RunCommand: only states that each command is a non-empty
  word sequence with no outer spaces. The value for each manager is its
  definition; no caller in the modelled files uses it.
- PackageManager.ExecCommand: states the same about the exec command. The
  split into program and arguments and the reported command line are
  stated by `TestRunner.CommandLine` and
  `TestRunner.FullCommandJoinsArgv`.

=== FILE: failure_detail.dfy ===
/**
 * Failure details read out of Jest's free-text failure messages by regular
 * expressions: the line number from a stack frame of the test file, the
 * matcher name, the `Expected`/`Received` values, and the cleaned message.
 * Each regular expression is modelled in the order JavaScript's backtracking
 * engine tries it: start positions left to right, greedy quantifiers giving
 * characters back right to left, the lazy `.*?` taking them one at a time.
 */
module FailureDetail {
  import opened Wrappers
  import opened Search
  import opened Text

  // ---------------------------------------------------------------------
  // Line number: `<escaped file>:(\d+):\d+`
  // ---------------------------------------------------------------------

  /** The characters `file.replace(/[.*+?^${}()|[\]\\]/g, "\\$&")` escapes. */
  predicate IsSyntaxChar(c: char) {
    c in ".*+?^${}()|[]\\"
  }

  /** The file path with a backslash put before every syntax character. */
  function EscapeRegExp(s: string): (r: string)
    ensures |s| <= |r| <= 2 * |s|
  {
    if |s| == 0 then ""
    else (if IsSyntaxChar(s[0]) then ['\\', s[0]] else [s[0]]) + EscapeRegExp(s[1..])
  }

  /**
   * The one string a pattern matches when it consists of literal atoms only
   * (a non-syntax character, or a backslash before a syntax character);
   * `None` when any other construct occurs.
   */
  function LiteralText(pattern: string): Option<string> {
    if |pattern| == 0 then Some("")
    else if pattern[0] == '\\' then
      if |pattern| >= 2 && IsSyntaxChar(pattern[1]) then
        match LiteralText(pattern[2..])
        case Some(t) => Some([pattern[1]] + t)
        case None => None
      else None
    else if IsSyntaxChar(pattern[0]) then None
    else
      match LiteralText(pattern[1..])
      case Some(t) => Some([pattern[0]] + t)
      case None => None
  }

  /** The escaped path is a pattern of literal atoms matching exactly the path. */
  lemma {:induction false} EscapedPathIsLiteral(s: string)
    ensures LiteralText(EscapeRegExp(s)) == Some(s)
  {
    if |s| > 0 {
      EscapedPathIsLiteral(s[1..]);
      var rest := EscapeRegExp(s[1..]);
      if IsSyntaxChar(s[0]) {
        assert EscapeRegExp(s) == ['\\', s[0]] + rest;
        assert (['\\', s[0]] + rest)[2..] == rest;
      } else {
        assert EscapeRegExp(s) == [s[0]] + rest;
        assert ([s[0]] + rest)[1..] == rest;
      }
      assert s == [s[0]] + s[1..];
    }
  }

  /**
   * The line regex anchored at `i`: the path, `:`, a greedy digit run (the
   * capture), `:` and at least one digit. Returns the captured number.
   */
  function LineMatchAt(msg: string, file: string, i: nat): Option<nat> {
    if OccursAt(msg, i, file) && i + |file| < |msg| && msg[i + |file|] == ':' then
      var d := RunEnd(msg, i + |file| + 1, IsDigit);
      if d > i + |file| + 1 && d + 1 < |msg| && msg[d] == ':' && IsDigit(msg[d + 1]) then
        Some(DecimalValue(msg[i + |file| + 1..d]))
      else None
    else None
  }

  /** `extractLineNumber`: the number captured by the leftmost match, or `null`. */
  function ExtractLineNumber(msg: string, file: string): (r: Option<nat>)
    ensures r.None? <==> forall i :: 0 <= i <= |msg| ==> LineMatchAt(msg, file, i).None?
    ensures forall p :: 0 <= p <= |msg| && LineMatchAt(msg, file, p).Some? &&
                        (forall i :: 0 <= i < p ==> LineMatchAt(msg, file, i).None?) ==>
                          r == LineMatchAt(msg, file, p)
  {
    var attempt := i => LineMatchAt(msg, file, i);
    assert forall i :: attempt(i) == LineMatchAt(msg, file, i);
    match Leftmost(attempt, 0, |msg| + 1)
    case None => None
    case Some(f) => Some(f.value)
  }

  /**
   * A stack frame `<file>:<line>:<column>` yields `<line>`, provided no
   * earlier match can start: the first character of the path does not occur
   * in the text before the frame.
   */
  lemma LineFromStackFrame(pre: string, file: string, line: nat, column: nat, post: string)
    requires |file| > 0 && file[0] !in pre
    ensures ExtractLineNumber(pre + file + ":" + DecimalString(line) + ":" + DecimalString(column) + post, file)
            == Some(line)
  {
    LineFromFrame(pre, file, DecimalString(line), DecimalString(column), post);
    DecimalRoundTrip(line);
  }

  /** As above, for the digits `ls` and `cs` as written. */
  lemma LineFromFrame(pre: string, file: string, ls: string, cs: string, post: string)
    requires |file| > 0 && file[0] !in pre
    requires |ls| >= 1 && AllDigits(ls) && |cs| >= 1 && IsDigit(cs[0])
    ensures ExtractLineNumber(pre + file + ":" + ls + ":" + cs + post, file) == Some(DecimalValue(ls))
  {
    var msg := pre + file + ":" + ls + ":" + cs + post;
    FrameLayout(pre, file, ls, cs, post);
    FirstFrame(msg, pre, file, ls);
  }

  /** The first frame, after a text `pre` free of the path's first character, decides the line. */
  lemma FirstFrame(msg: string, pre: string, file: string, ls: string)
    requires |file| > 0 && file[0] !in pre
    requires |ls| >= 1 && AllDigits(ls)
    requires var p := |pre|;
             && p + |file| + |ls| + 2 < |msg|
             && (forall k :: 0 <= k < p ==> msg[k] == pre[k])
             && (forall k :: 0 <= k < |file| ==> msg[p + k] == file[k])
             && msg[p + |file|] == ':'
             && (forall k :: 0 <= k < |ls| ==> msg[p + |file| + 1 + k] == ls[k])
             && msg[p + |file| + 1 + |ls|] == ':'
             && IsDigit(msg[p + |file| + 2 + |ls|])
    ensures ExtractLineNumber(msg, file) == Some(DecimalValue(ls))
  {
    var p := |pre|;
    FrameMatches(msg, p, file, ls);
    NoTagBefore(msg, file, pre);
    LineNumberAt(msg, file, p);
  }

  /** The frame at `p` decides the line when the path occurs nowhere before it. */
  lemma LineNumberAt(msg: string, file: string, p: nat)
    requires p <= |msg| && LineMatchAt(msg, file, p).Some?
    requires forall i :: 0 <= i < p ==> !OccursAt(msg, i, file)
    ensures ExtractLineNumber(msg, file) == LineMatchAt(msg, file, p)
  {
    assert forall i :: 0 <= i < p ==> LineMatchAt(msg, file, i).None?;
  }

  /** Where the parts of `pre + file + ":" + ls + ":" + cs + post` sit. */
  lemma FrameLayout(pre: string, file: string, ls: string, cs: string, post: string)
    requires |cs| >= 1
    ensures var msg := pre + file + ":" + ls + ":" + cs + post;
            var p := |pre|;
            && p + |file| + |ls| + 2 < |msg|
            && (forall k :: 0 <= k < p ==> msg[k] == pre[k])
            && (forall k :: 0 <= k < |file| ==> msg[p + k] == file[k])
            && msg[p + |file|] == ':'
            && (forall k :: 0 <= k < |ls| ==> msg[p + |file| + 1 + k] == ls[k])
            && msg[p + |file| + 1 + |ls|] == ':'
            && msg[p + |file| + 2 + |ls|] == cs[0]
  {
  }

  /** The line regex matches a frame `<file>:<digits>:<digit>` where it starts. */
  lemma FrameMatches(msg: string, p: nat, file: string, ls: string)
    requires |ls| >= 1 && AllDigits(ls)
    requires p + |file| + |ls| + 2 < |msg|
    requires forall k :: 0 <= k < |file| ==> msg[p + k] == file[k]
    requires msg[p + |file|] == ':'
    requires forall k :: 0 <= k < |ls| ==> msg[p + |file| + 1 + k] == ls[k]
    requires msg[p + |file| + 1 + |ls|] == ':'
    requires IsDigit(msg[p + |file| + 2 + |ls|])
    ensures LineMatchAt(msg, file, p) == Some(DecimalValue(ls))
  {
    var start := p + |file| + 1;
    var stop := start + |ls|;
    assert OccursAt(msg, p, file) by {
      assert msg[p..p + |file|] == file;
    }
    assert RunEnd(msg, start, IsDigit) == stop by {
      forall k | start <= k < stop
        ensures IsDigit(msg[k])
      {
        assert msg[k] == ls[k - start];
      }
      RunEndIs(msg, start, IsDigit, stop);
    }
    assert msg[start..stop] == ls;
    LineMatchAtIs(msg, file, p, stop, ls);
  }

  /** The line regex at `p` once the path, the colon and the digit run ending at `d` are known. */
  lemma LineMatchAtIs(msg: string, file: string, p: nat, d: nat, ls: string)
    requires OccursAt(msg, p, file) && p + |file| < |msg| && msg[p + |file|] == ':'
    requires RunEnd(msg, p + |file| + 1, IsDigit) == d && d > p + |file| + 1
    requires d + 1 < |msg| && msg[d] == ':' && IsDigit(msg[d + 1])
    requires msg[p + |file| + 1..d] == ls
    ensures AllDigits(ls) && LineMatchAt(msg, file, p) == Some(DecimalValue(ls))
  {
  }

  // ---------------------------------------------------------------------
  // Matcher name: `expect\(.*?\)\.(to\w+)`
  // ---------------------------------------------------------------------

  /** What `to\w+` matches. */
  predicate IsMatcherName(name: string) {
    |name| >= 3 && name[..2] == "to" && forall k :: 2 <= k < |name| ==> IsWordChar(name[k])
  }

  /** `\)\.(to\w+)` anchored at `j`: the captured matcher name. */
  function MatcherNameAt(msg: string, j: nat): (r: Option<string>)
    ensures r.Some? ==> IsMatcherName(r.value)
  {
    if j + 5 <= |msg| && msg[j..j + 4] == ").to" && IsWordChar(msg[j + 4]) then
      var name := msg[j + 2..RunEnd(msg, j + 4, IsWordChar)];
      assert name[..2] == msg[j..j + 4][2..];
      Some(name)
    else None
  }

  function MatcherNameAttempt(msg: string): (attempt: nat -> Option<string>)
    ensures forall j :: attempt(j) == MatcherNameAt(msg, j)
  {
    (j: nat) => MatcherNameAt(msg, j)
  }

  /**
   * The matcher regex anchored at `i`: `expect(`, then the lazy `.*?` grows
   * one character at a time, never past a line terminator, until
   * `\)\.(to\w+)` matches.
   */
  function MatcherAt(msg: string, i: nat): (r: Option<string>)
    ensures r.Some? ==> IsMatcherName(r.value)
  {
    if OccursAt(msg, i, "expect(") then
      match Leftmost(MatcherNameAttempt(msg), i + 7, LineEnd(msg, i + 7) + 1)
      case None => None
      case Some(f) => Some(f.value)
    else None
  }

  function MatcherAttempt(msg: string): (attempt: nat -> Option<string>)
    ensures forall i :: attempt(i) == MatcherAt(msg, i)
  {
    (i: nat) => MatcherAt(msg, i)
  }

  /** The matcher name of the leftmost match, or `null`. */
  function ExtractMatcherName(msg: string): (r: Option<string>)
    ensures r.Some? ==> IsMatcherName(r.value)
    ensures r.None? <==> forall i :: 0 <= i <= |msg| ==> MatcherAt(msg, i).None?
  {
    match Leftmost(MatcherAttempt(msg), 0, |msg| + 1)
    case None => None
    case Some(f) => Some(f.value)
  }

  /**
   * A call `expect(<arg>).<name>` is read back as `<name>` when no earlier
   * `expect(` occurs, the argument holds no parenthesis or line break and the
   * name is not followed by another word character.
   */
  lemma MatcherFromCall(pre: string, arg: string, name: string, post: string)
    requires 'e' !in pre
    requires ')' !in arg && forall k :: 0 <= k < |arg| ==> !IsLineTerminator(arg[k])
    requires IsMatcherName(name)
    requires post == [] || !IsWordChar(post[0])
    ensures ExtractMatcherName(pre + "expect(" + arg + ")." + name + post) == Some(name)
  {
    var msg := pre + "expect(" + arg + ")." + name + post;
    CallLayout(pre, arg, name, post);
    FirstCall(msg, pre, arg, name);
  }

  /** The call after a text `pre` free of `e`, its argument `arg` free of `)`, gives the name written there. */
  lemma FirstCall(msg: string, pre: string, arg: string, name: string)
    requires 'e' !in pre && ')' !in arg
    requires IsMatcherName(name)
    requires var j := |pre| + 7 + |arg|;
             && j + 2 + |name| <= |msg|
             && OccursAt(msg, |pre|, "expect(")
             && (forall k :: 0 <= k < |pre| ==> msg[k] == pre[k])
             && (forall k :: 0 <= k < |arg| ==> msg[|pre| + 7 + k] == arg[k])
             && msg[j] == ')' && msg[j + 1] == '.'
             && (forall k :: 0 <= k < |name| ==> msg[j + 2 + k] == name[k])
             && (j + 2 + |name| < |msg| ==> !IsWordChar(msg[j + 2 + |name|]))
             && (forall k :: |pre| + 7 <= k < j ==> !IsLineTerminator(msg[k]))
    ensures ExtractMatcherName(msg) == Some(name)
  {
    var s := |pre|;
    var j := s + 7 + |arg|;
    NameAfterParen(msg, j, name);
    forall k | 0 <= k < s
      ensures msg[k] != 'e'
    {
      assert msg[k] == pre[k];
    }
    forall k | s + 7 <= k < j
      ensures msg[k] != ')'
    {
      assert msg[k] == arg[k - s - 7];
    }
    CallMatches(msg, s, j, name);
  }

  /** `\)\.(to\w+)` at `j` captures the name written there when no word character follows it. */
  lemma NameAfterParen(msg: string, j: nat, name: string)
    requires |name| >= 3 && name[..2] == "to"
    requires forall k :: 2 <= k < |name| ==> IsWordChar(name[k])
    requires j + 2 + |name| <= |msg|
    requires msg[j] == ')' && msg[j + 1] == '.'
    requires forall k :: 0 <= k < |name| ==> msg[j + 2 + k] == name[k]
    requires j + 2 + |name| < |msg| ==> !IsWordChar(msg[j + 2 + |name|])
    ensures MatcherNameAt(msg, j) == Some(name)
  {
    assert name[0] == 't' && name[1] == 'o' by { assert name[..2] == "to"; }
    assert msg[j + 2] == name[0] && msg[j + 3] == name[1] && msg[j + 4] == name[2];
    assert msg[j..j + 4] == ").to";
    assert forall k :: j + 4 <= k < j + 2 + |name| ==> msg[k] == name[k - j - 2];
    RunEndIs(msg, j + 4, IsWordChar, j + 2 + |name|);
    assert msg[j + 2..j + 2 + |name|] == name;
  }

  /**
   * The leftmost match starts at the `expect(` at `s` and its lazy `.*?`
   * stops at the `)` at `j`, the first one after it.
   */
  lemma CallMatches(msg: string, s: nat, j: nat, name: string)
    requires OccursAt(msg, s, "expect(") && s + 7 <= j < |msg|
    requires forall k :: 0 <= k < s ==> msg[k] != 'e'
    requires forall k :: s + 7 <= k < j ==> msg[k] != ')' && !IsLineTerminator(msg[k])
    requires MatcherNameAt(msg, j) == Some(name)
    ensures ExtractMatcherName(msg) == Some(name)
  {
    CallAt(msg, s, j, name);
    assert forall i :: 0 <= i < s ==> MatcherAt(msg, i).None? by {
      forall i | 0 <= i < s
        ensures !OccursAt(msg, i, "expect(")
      {
        assert msg[i..i + 7][0] == msg[i];
      }
    }
    MatcherLeftmost(msg, s);
  }

  /** A match at `s` with no `expect(` before it is the leftmost one. */
  lemma MatcherLeftmost(msg: string, s: nat)
    requires s <= |msg| && MatcherAt(msg, s).Some?
    requires forall i :: 0 <= i < s ==> MatcherAt(msg, i).None?
    ensures ExtractMatcherName(msg) == MatcherAt(msg, s)
  {
    LeftmostIs(MatcherAttempt(msg), 0, |msg| + 1, s);
  }

  /** From the `expect(` at `s`, the lazy `.*?` stops at the first `)` at `j`. */
  lemma CallAt(msg: string, s: nat, j: nat, name: string)
    requires OccursAt(msg, s, "expect(") && s + 7 <= j < |msg|
    requires forall k :: s + 7 <= k < j ==> msg[k] != ')' && !IsLineTerminator(msg[k])
    requires MatcherNameAt(msg, j) == Some(name)
    ensures MatcherAt(msg, s) == Some(name)
  {
    forall k | s + 7 <= k < j
      ensures MatcherNameAt(msg, k).None?
    {
      assert msg[k..k + 4][0] == msg[k];
    }
    assert LineEnd(msg, s + 7) >= j;
    LeftmostIs(MatcherNameAttempt(msg), s + 7, LineEnd(msg, s + 7) + 1, j);
  }

  /** Where the parts of `pre + "expect(" + arg + ")." + name + post` sit. */
  lemma CallLayout(pre: string, arg: string, name: string, post: string)
    requires forall k :: 0 <= k < |arg| ==> !IsLineTerminator(arg[k])
    requires |name| >= 3 && name[..2] == "to" && IsWordChar(name[2])
    ensures var msg := pre + "expect(" + arg + ")." + name + post;
            var j := |pre| + 7 + |arg|;
            && j + 2 + |name| <= |msg|
            && OccursAt(msg, |pre|, "expect(")
            && (forall k :: 0 <= k < |pre| ==> msg[k] == pre[k])
            && (forall k :: 0 <= k < |arg| ==> msg[|pre| + 7 + k] == arg[k])
            && msg[j] == ')' && msg[j + 1] == '.'
            && (forall k :: 0 <= k < |name| ==> msg[j + 2 + k] == name[k])
            && (j + 2 + |name| < |msg| ==> msg[j + 2 + |name|] == post[0])
            && (forall k :: |pre| + 7 <= k < j ==> !IsLineTerminator(msg[k]))
  {
    var msg := pre + "expect(" + arg + ")." + name + post;
    var j := |pre| + 7 + |arg|;
    assert msg[|pre|..|pre| + 7] == "expect(";
    assert msg[j] == ')' && msg[j + 1] == '.';
    assert msg[j + 2] == name[0] == 't' && msg[j + 3] == name[1] == 'o';
    assert msg[j + 4] == name[2];
  }

  // ---------------------------------------------------------------------
  // Expected / Received: `Expected:?\s*(.+)` and `Received:?\s*(.+)`
  // ---------------------------------------------------------------------

  /** `.+` anchored at `k`: the rest of the line, when it is not empty. */
  function LineRestAt(msg: string, k: nat): (r: Option<string>)
    ensures r.Some? ==> |r.value| > 0 && forall c :: 0 <= c < |r.value| ==> !IsLineTerminator(r.value[c])
  {
    if k < |msg| && !IsLineTerminator(msg[k]) then Some(msg[k..LineEnd(msg, k)]) else None
  }

  function LineRestAttempt(msg: string): (attempt: nat -> Option<string>)
    ensures forall k :: attempt(k) == LineRestAt(msg, k)
  {
    (k: nat) => LineRestAt(msg, k)
  }

  /**
   * `\s*(.+)` anchored at `q`: `\s*` first takes all the whitespace (line
   * breaks included) and gives it back one character at a time until `.+`
   * can match.
   */
  function SpacedRestAt(msg: string, q: nat): (r: Option<string>)
    requires q <= |msg|
    ensures r.Some? ==> forall c :: 0 <= c < |r.value| ==> !IsLineTerminator(r.value[c])
    ensures r.None? <==> forall k :: q <= k <= RunEnd(msg, q, IsSpace) ==> LineRestAt(msg, k).None?
  {
    match Rightmost(LineRestAttempt(msg), q, RunEnd(msg, q, IsSpace) + 1)
    case None => None
    case Some(f) => Some(f.value)
  }

  /** `<tag>:?\s*(.+)` anchored at `i`: the optional colon is tried first taken, then skipped. */
  function LabelledAt(msg: string, tag: string, i: nat): (r: Option<string>)
    ensures r.Some? ==> forall c :: 0 <= c < |r.value| ==> !IsLineTerminator(r.value[c])
  {
    if OccursAt(msg, i, tag) then
      var p := i + |tag|;
      var withColon := if p < |msg| && msg[p] == ':' then SpacedRestAt(msg, p + 1) else None;
      if withColon.Some? then withColon else SpacedRestAt(msg, p)
    else None
  }

  function LabelledAttempt(msg: string, tag: string): (attempt: nat -> Option<string>)
    ensures forall i :: attempt(i) == LabelledAt(msg, tag, i)
  {
    (i: nat) => LabelledAt(msg, tag, i)
  }

  /** The captured value of the leftmost match, trimmed, or `null`. */
  function ExtractLabelled(msg: string, tag: string): (r: Option<string>)
    ensures r.Some? ==> forall k :: 0 <= k < |r.value| ==> !IsLineTerminator(r.value[k])
    ensures r.Some? ==> r.value == [] || (!IsSpace(r.value[0]) && !IsSpace(r.value[|r.value| - 1]))
    ensures r.None? <==> forall i :: 0 <= i <= |msg| ==> LabelledAt(msg, tag, i).None?
  {
    match Leftmost(LabelledAttempt(msg, tag), 0, |msg| + 1)
    case None => None
    case Some(f) =>
      TrimKeepsLine(f.value);
      Some(Trim(f.value))
  }

  /** Trimming a piece of one line leaves a piece of one line. */
  lemma TrimKeepsLine(v: string)
    requires forall k :: 0 <= k < |v| ==> !IsLineTerminator(v[k])
    ensures forall k :: 0 <= k < |Trim(v)| ==> !IsLineTerminator(Trim(v)[k])
  {
    var a := RunEnd(v, 0, IsSpace);
    var b := RunStart(v, a, |v|, IsSpace);
    assert Trim(v) == v[a..b];
  }

  /**
   * An occurrence of the tag yields no value exactly when nothing but line
   * terminators follows it: `\s*` may cross line breaks, and when it can
   * find nothing else the colon itself is captured.
   */
  lemma LabelledAtFails(msg: string, tag: string, i: nat)
    requires OccursAt(msg, i, tag)
    ensures LabelledAt(msg, tag, i).None? <==>
              forall k :: i + |tag| <= k < |msg| ==> IsLineTerminator(msg[k])
  {
    var p := i + |tag|;
    var w := RunEnd(msg, p, IsSpace);
    if exists k :: p <= k < |msg| && !IsLineTerminator(msg[k]) {
      var k :| p <= k < |msg| && !IsLineTerminator(msg[k]);
      if w < |msg| {
        assert LineRestAt(msg, w).Some?;
      } else {
        assert LineRestAt(msg, k).Some?;
      }
      assert SpacedRestAt(msg, p).Some?;
    }
  }

  /**
   * `<tag>: <value>` on its own line is read back as `<value>` when the tag
   * does not occur earlier and the value has no surrounding whitespace.
   */
  lemma LabelledValueFromLine(pre: string, tag: string, v: string, post: string)
    requires |tag| > 0 && tag[0] !in pre
    requires |v| > 0 && !IsSpace(v[0]) && !IsSpace(v[|v| - 1])
    requires forall k :: 0 <= k < |v| ==> !IsLineTerminator(v[k])
    requires post == [] || IsLineTerminator(post[0])
    ensures ExtractLabelled(pre + tag + ": " + v + post, tag) == Some(v)
  {
    var msg := pre + tag + ": " + v + post;
    TagLineLayout(pre, tag, v, post);
    NoTagBefore(msg, tag, pre);
    TaggedValueAt(msg, tag, |pre|, v);
  }

  /** The leftmost match is the tag at `i`, followed by `: <v>` ending its line. */
  lemma TaggedValueAt(msg: string, tag: string, i: nat, v: string)
    requires |v| > 0 && !IsSpace(v[0]) && !IsSpace(v[|v| - 1])
    requires forall k :: 0 <= k < |v| ==> !IsLineTerminator(v[k])
    requires OccursAt(msg, i, tag)
    requires forall j :: 0 <= j < i ==> !OccursAt(msg, j, tag)
    requires i + |tag| + 2 + |v| <= |msg|
    requires msg[i + |tag|] == ':' && msg[i + |tag| + 1] == ' '
    requires forall k :: 0 <= k < |v| ==> msg[i + |tag| + 2 + k] == v[k]
    requires i + |tag| + 2 + |v| < |msg| ==> IsLineTerminator(msg[i + |tag| + 2 + |v|])
    ensures ExtractLabelled(msg, tag) == Some(v)
  {
    ColonSpaceValue(msg, tag, i, v);
    LabelledLeftmost(msg, tag, i);
    TrimmedIsFixed(v);
  }

  /** A tag whose first character is missing from the text's prefix cannot start a match inside it. */
  lemma NoTagBefore(msg: string, tag: string, pre: string)
    requires |tag| > 0 && tag[0] !in pre && |pre| <= |msg|
    requires forall k :: 0 <= k < |pre| ==> msg[k] == pre[k]
    ensures forall j :: 0 <= j < |pre| ==> !OccursAt(msg, j, tag)
  {
    forall j | 0 <= j < |pre|
      ensures !OccursAt(msg, j, tag)
    {
      assert msg[j] == pre[j];
    }
  }

  /** The value comes from the first position where the pattern matches. */
  lemma LabelledLeftmost(msg: string, tag: string, i: nat)
    requires i <= |msg| && LabelledAt(msg, tag, i).Some?
    requires forall j :: 0 <= j < i ==> !OccursAt(msg, j, tag)
    ensures ExtractLabelled(msg, tag) == Some(Trim(LabelledAt(msg, tag, i).value))
  {
    LeftmostIs(LabelledAttempt(msg, tag), 0, |msg| + 1, i);
  }

  /** The match at `i` of `<tag>: <v>` ending its line captures `v`. */
  lemma ColonSpaceValue(msg: string, tag: string, i: nat, v: string)
    requires |v| > 0 && !IsSpace(v[0])
    requires forall k :: 0 <= k < |v| ==> !IsLineTerminator(v[k])
    requires OccursAt(msg, i, tag)
    requires i + |tag| + 2 + |v| <= |msg|
    requires msg[i + |tag|] == ':' && msg[i + |tag| + 1] == ' '
    requires forall k :: 0 <= k < |v| ==> msg[i + |tag| + 2 + k] == v[k]
    requires i + |tag| + 2 + |v| < |msg| ==> IsLineTerminator(msg[i + |tag| + 2 + |v|])
    ensures LabelledAt(msg, tag, i) == Some(v)
  {
    var p := i + |tag|;
    assert SpacedRestAt(msg, p + 1) == Some(v) by {
      LineRestIs(msg, p + 2, v);
      SpacedRestIs(msg, p + 1, v);
    }
    LabelledWithColon(msg, tag, i, v);
  }

  /** When `:\s*(.+)` matches after the tag, the colon is taken. */
  lemma LabelledWithColon(msg: string, tag: string, i: nat, v: string)
    requires OccursAt(msg, i, tag) && i + |tag| < |msg| && msg[i + |tag|] == ':'
    requires SpacedRestAt(msg, i + |tag| + 1) == Some(v)
    ensures LabelledAt(msg, tag, i) == Some(v)
  {
  }

  /** `(.+)` at `q` captures `v` when `v` fills the line from `q` on. */
  lemma LineRestIs(msg: string, q: nat, v: string)
    requires |v| > 0 && q + |v| <= |msg|
    requires forall k :: 0 <= k < |v| ==> !IsLineTerminator(v[k])
    requires forall k :: 0 <= k < |v| ==> msg[q + k] == v[k]
    requires q + |v| < |msg| ==> IsLineTerminator(msg[q + |v|])
    ensures LineRestAt(msg, q) == Some(v)
  {
    assert forall k :: q <= k < q + |v| ==> msg[k] == v[k - q];
    RunEndIs(msg, q, NotLineTerminator, q + |v|);
    assert msg[q..q + |v|] == v;
  }

  /** `\s*(.+)` at `q` captures `v` when one space and then `v` follow. */
  lemma SpacedRestIs(msg: string, q: nat, v: string)
    requires q + 1 < |msg| && msg[q] == ' ' && !IsSpace(msg[q + 1])
    requires LineRestAt(msg, q + 1) == Some(v)
    ensures SpacedRestAt(msg, q) == Some(v)
  {
    RunEndIs(msg, q, IsSpace, q + 1);
    RightmostIs(LineRestAttempt(msg), q, q + 2, q + 1);
  }

  /** Where the parts of `pre + tag + ": " + v + post` sit. */
  lemma TagLineLayout(pre: string, tag: string, v: string, post: string)
    requires |v| > 0
    ensures var msg := pre + tag + ": " + v + post;
            var q := |pre| + |tag| + 2;
            && q + |v| <= |msg|
            && OccursAt(msg, |pre|, tag)
            && (forall k :: 0 <= k < |pre| ==> msg[k] == pre[k])
            && msg[q - 2] == ':' && msg[q - 1] == ' '
            && (forall k :: 0 <= k < |v| ==> msg[q + k] == v[k])
            && (q + |v| < |msg| ==> msg[q + |v|] == post[0])
            && (q + |v| < |msg| <==> post != [])
  {
    var msg := pre + tag + ": " + v + post;
    assert msg[|pre|..|pre| + |tag|] == tag;
  }

  /** Everything `extractExpectedReceived` returns. */
  datatype ExpectedReceived = ExpectedReceived(
    expected: Option<string>,
    received: Option<string>,
    matcherName: Option<string>)

  /** `extractExpectedReceived`: three independent searches of the same message. */
  function ExtractExpectedReceived(msg: string): (r: ExpectedReceived)
    ensures r.matcherName.Some? ==> IsMatcherName(r.matcherName.value)
    ensures r.expected.None? <==> forall i :: 0 <= i <= |msg| ==> LabelledAt(msg, "Expected", i).None?
    ensures r.received.None? <==> forall i :: 0 <= i <= |msg| ==> LabelledAt(msg, "Received", i).None?
    ensures r.expected.Some? ==> forall k :: 0 <= k < |r.expected.value| ==> !IsLineTerminator(r.expected.value[k])
    ensures r.received.Some? ==> forall k :: 0 <= k < |r.received.value| ==> !IsLineTerminator(r.received.value[k])
  {
    ExpectedReceived(ExtractLabelled(msg, "Expected"), ExtractLabelled(msg, "Received"), ExtractMatcherName(msg))
  }

  /** A typical `toBe` failure message: the call, then the `Expected` and `Received` lines. */
  function ToBeMessage(): string {
    "expect(" + "received" + ")." + "toBe" + "(expected)\n\n" + "Expected: 3" + "\n" + "Received: 2"
  }

  /** The `toBe` failure is read back as matcher `toBe`, expected `3`, received `2`. */
  lemma ToBeFailureExample()
    ensures ExtractExpectedReceived(ToBeMessage()) == ExpectedReceived(Some("3"), Some("2"), Some("toBe"))
  {
    ToBeMatcherExample();
    ToBeExpectedExample();
    ToBeReceivedExample();
  }

  lemma ToBeMatcherExample()
    ensures ExtractMatcherName(ToBeMessage()) == Some("toBe")
  {
    var post := "(expected)\n\n" + "Expected: 3" + "\n" + "Received: 2";
    assert IsMatcherName("toBe") by {
      assert "toBe"[..2] == "to";
    }
    assert ToBeMessage() == "" + "expect(" + "received" + ")." + "toBe" + post by {
      assert "" + "expect(" == "expect(";
    }
    MatcherFromCall("", "received", "toBe", post);
  }

  lemma ToBeExpectedExample()
    ensures ExtractLabelled(ToBeMessage(), "Expected") == Some("3")
  {
    var header := "expect(" + "received" + ")." + "toBe" + "(expected)\n\n";
    var post := "\n" + "Received: 2";
    assert 'E' !in header by {
      assert forall k :: 0 <= k < |header| ==> header[k] != 'E';
    }
    assert ToBeMessage() == header + "Expected" + ": " + "3" + post by {
      assert "Expected: 3" == "Expected" + ": " + "3";
    }
    LabelledValueFromLine(header, "Expected", "3", post);
  }

  lemma ToBeReceivedExample()
    ensures ExtractLabelled(ToBeMessage(), "Received") == Some("2")
  {
    var before := "expect(" + "received" + ")." + "toBe" + "(expected)\n\n" + "Expected: 3" + "\n";
    assert 'R' !in before by {
      assert forall k :: 0 <= k < |before| ==> before[k] != 'R';
    }
    assert ToBeMessage() == before + "Received" + ": " + "2" + "" by {
      assert "Received: 2" == "Received" + ": " + "2" + "";
    }
    LabelledValueFromLine(before, "Received", "2", "");
  }

  /** The frame `at /project/src/app.test.js:42:10` gives line 42. */
  lemma StackFrameExample()
    ensures ExtractLineNumber("Error\n    at " + "/project/src/app.test.js" + ":" + "42" + ":" + "10" + "",
                              "/project/src/app.test.js") == Some(42)
  {
    assert '/' !in "Error\n    at ";
    LineFromFrame("Error\n    at ", "/project/src/app.test.js", "42", "10", "");
  }

  // ---------------------------------------------------------------------
  // Message cleanup
  // ---------------------------------------------------------------------

  const Esc: char := '\U{1B}'

  predicate IsSgrParam(c: char) {
    IsDigit(c) || c == ';'
  }

  /** The length of an SGR escape `\x1b\[[0-9;]*m` at the start of `s`, or 0. */
  function SgrLength(s: string): (n: nat)
    ensures n == 0 || (3 <= n <= |s| && s[0] == Esc)
  {
    if |s| >= 2 && s[0] == Esc && s[1] == '[' then
      var e := RunEnd(s, 2, IsSgrParam);
      if e < |s| && s[e] == 'm' then e + 1 else 0
    else 0
  }

  /** `replace(/\x1b\[[0-9;]*m/g, "")`: scan left to right, dropping each SGR escape found. */
  function StripSgr(s: string): (r: string)
    ensures |r| <= |s|
    decreases |s|
  {
    if |s| == 0 then ""
    else if SgrLength(s) > 0 then StripSgr(s[SgrLength(s)..])
    else [s[0]] + StripSgr(s[1..])
  }

  /** An SGR escape sequence with the given parameters, as terminals receive it. */
  function SgrCode(params: string): string {
    [Esc, '['] + params + "m"
  }

  /** Text without an escape character passes through untouched. */
  lemma {:induction false} StripSgrPlain(s: string)
    requires Esc !in s
    ensures StripSgr(s) == s
  {
    if |s| > 0 {
      StripSgrPlain(s[1..]);
      assert s == [s[0]] + s[1..];
    }
  }

  /** An escape-free prefix is kept and the scan carries on after it. */
  lemma {:induction false} StripSgrPlainPrefix(x: string, y: string)
    requires Esc !in x
    ensures StripSgr(x + y) == x + StripSgr(y)
  {
    if |x| > 0 {
      assert (x + y)[0] == x[0] != Esc;
      assert (x + y)[1..] == x[1..] + y;
      assert Esc !in x[1..];
      StripSgrPlainPrefix(x[1..], y);
      assert StripSgr(x + y) == [x[0]] + StripSgr(x[1..] + y);
      assert [x[0]] + (x[1..] + StripSgr(y)) == ([x[0]] + x[1..]) + StripSgr(y);
      assert x == [x[0]] + x[1..];
    } else {
      assert x + y == y;
    }
  }

  /** A complete SGR escape at the front is dropped as a whole. */
  lemma StripSgrDropsCode(params: string, y: string)
    requires forall k :: 0 <= k < |params| ==> IsSgrParam(params[k])
    ensures StripSgr(SgrCode(params) + y) == StripSgr(y)
  {
    var s := SgrCode(params) + y;
    var e := 2 + |params|;
    assert s[0] == Esc && s[1] == '[' && s[e] == 'm';
    assert forall k :: 2 <= k < e ==> s[k] == params[k - 2];
    RunEndIs(s, 2, IsSgrParam, e);
    assert SgrLength(s) == e + 1;
    assert s[e + 1..] == y;
  }

  /** Text painted with a colour and a reset comes back exactly. */
  lemma StripPainted(colour: string, x: string, reset: string)
    requires forall k :: 0 <= k < |colour| ==> IsSgrParam(colour[k])
    requires forall k :: 0 <= k < |reset| ==> IsSgrParam(reset[k])
    requires Esc !in x
    ensures StripSgr(SgrCode(colour) + x + SgrCode(reset)) == x
  {
    var tail := x + SgrCode(reset);
    calc {
      StripSgr(SgrCode(colour) + x + SgrCode(reset));
      { assert SgrCode(colour) + x + SgrCode(reset) == SgrCode(colour) + tail; }
      StripSgr(SgrCode(colour) + tail);
      { StripSgrDropsCode(colour, tail); }
      StripSgr(tail);
      { StripSgrPlainPrefix(x, SgrCode(reset)); }
      x + StripSgr(SgrCode(reset));
      { StripSgrCode(reset); }
      x + "";
      x;
    }
  }

  /** A lone SGR escape is removed entirely. */
  lemma StripSgrCode(params: string)
    requires forall k :: 0 <= k < |params| ==> IsSgrParam(params[k])
    ensures StripSgr(SgrCode(params)) == ""
  {
    assert SgrCode(params) + "" == SgrCode(params);
    StripSgrDropsCode(params, "");
  }

  /**
   * The replacement is a single left-to-right pass: removing one escape can
   * bring the pieces of another together, and those are left in place.
   */
  lemma StripSgrSinglePass()
    ensures StripSgr([Esc, '['] + SgrCode("") + "m") == SgrCode("")
  {
    var s := [Esc, '['] + SgrCode("") + "m";
    assert s[2] == Esc;
    RunEndIs(s, 2, IsSgrParam, 2);
    assert SgrLength(s) == 0;
    assert s[1..] == ['['] + (SgrCode("") + "m");
    StripSgrPlainPrefix(['['], SgrCode("") + "m");
    StripSgrDropsCode("", "m");
    StripSgrPlain("m");
  }

  /** `replace(/\r\n/g, "\n")`. */
  function NormalizeCrlf(s: string): (r: string)
    ensures |r| <= |s|
    decreases |s|
  {
    if |s| == 0 then ""
    else if |s| >= 2 && s[0] == '\r' && s[1] == '\n' then "\n" + NormalizeCrlf(s[2..])
    else [s[0]] + NormalizeCrlf(s[1..])
  }

  /** Every LF written as CRLF, as Windows tools write line breaks. */
  function ToCrlf(s: string): (r: string)
    ensures |r| >= |s|
  {
    if |s| == 0 then ""
    else (if s[0] == '\n' then "\r\n" else [s[0]]) + ToCrlf(s[1..])
  }

  /** Text without a carriage return is left alone. */
  lemma {:induction false} NormalizeCrlfPlain(s: string)
    requires '\r' !in s
    ensures NormalizeCrlf(s) == s
  {
    if |s| > 0 {
      NormalizeCrlfPlain(s[1..]);
      assert s == [s[0]] + s[1..];
    }
  }

  /** Normalising undoes the CRLF expansion of text that had no carriage return. */
  lemma {:induction false} NormalizeCrlfRoundTrip(s: string)
    requires '\r' !in s
    ensures NormalizeCrlf(ToCrlf(s)) == s
  {
    if |s| > 0 {
      NormalizeCrlfRoundTrip(s[1..]);
      var t := ToCrlf(s);
      if s[0] == '\n' {
        assert t == "\r\n" + ToCrlf(s[1..]);
        assert t[2..] == ToCrlf(s[1..]);
      } else {
        assert t == [s[0]] + ToCrlf(s[1..]);
        assert t[1..] == ToCrlf(s[1..]);
      }
      assert s == [s[0]] + s[1..];
    }
  }

  /** `cleanErrorMessage`: SGR escapes removed, CRLF turned into LF, then trimmed. */
  function CleanErrorMessage(msg: string): (r: string)
    ensures |r| <= |msg|
    ensures r == [] || (!IsSpace(r[0]) && !IsSpace(r[|r| - 1]))
  {
    Trim(NormalizeCrlf(StripSgr(msg)))
  }

  /** A message free of escapes and carriage returns is only trimmed. */
  lemma CleanPlainMessage(msg: string)
    requires Esc !in msg && '\r' !in msg
    ensures CleanErrorMessage(msg) == Trim(msg)
  {
    StripSgrPlain(msg);
    NormalizeCrlfPlain(msg);
  }

  /** A coloured message with Windows line breaks is cleaned to the plain text. */
  lemma CleanPaintedCrlf(colour: string, x: string, reset: string)
    requires forall k :: 0 <= k < |colour| ==> IsSgrParam(colour[k])
    requires forall k :: 0 <= k < |reset| ==> IsSgrParam(reset[k])
    requires Esc !in x && '\r' !in x
    requires |x| > 0 && !IsSpace(x[0]) && !IsSpace(x[|x| - 1])
    ensures CleanErrorMessage(SgrCode(colour) + ToCrlf(x) + SgrCode(reset)) == x
  {
    CrlfAddsNoEscape(x);
    StripPainted(colour, ToCrlf(x), reset);
    NormalizeCrlfRoundTrip(x);
    TrimmedIsFixed(x);
  }

  /** The CRLF expansion adds only carriage returns. */
  lemma {:induction false} CrlfAddsNoEscape(s: string)
    requires Esc !in s
    ensures Esc !in ToCrlf(s)
  {
    if |s| > 0 {
      CrlfAddsNoEscape(s[1..]);
    }
  }
}

=== FILE: host.dfy ===
/**
 * The parts of Node's `fs` and `path` the configuration detection uses.
 * The file system is an oracle: a path's contents, or `None` when
 * `existsSync` would report nothing there.
 */
module Host {
  import opened Wrappers

  type FileSystem = string -> Option<string>

  /** `existsSync(path)`. */
  predicate Exists(fs: FileSystem, path: string) {
    fs(path).Some?
  }

  /** `path.join(dir, name)` for a plain file name `name`. */
  function PathJoin(dir: string, name: string): (p: string)
    ensures |p| >= |name| && p[|p| - |name|..] == name
    ensures dir == "" ==> p == name
    ensures dir != "" ==> |p| > |name| && p[|p| - |name| - 1] == '/' && p[..|p| - |name| - 1] <= dir
  {
    if dir == "" then name
    else if dir[|dir| - 1] == '/' then dir + name
    else dir + "/" + name
  }

  /** Joining one directory with two different names gives two different paths. */
  lemma PathJoinInjective(dir: string, a: string, b: string)
    ensures PathJoin(dir, a) == PathJoin(dir, b) <==> a == b
  {
    var pa, pb := PathJoin(dir, a), PathJoin(dir, b);
    if dir != "" && dir[|dir| - 1] != '/' {
      assert pa[|dir| + 1..] == a && pb[|dir| + 1..] == b;
    } else {
      assert pa[|dir|..] == a && pb[|dir|..] == b;
    }
  }
}

=== FILE: jest_config.dfy ===
/**
 * What the runner learns about a project before starting Jest: its package
 * manager, its Jest configuration file, and its workspace packages, read
 * from `package.json` or, failing that, from `pnpm-workspace.yaml`.
 */
module JestConfig {
  import opened Wrappers
  import opened Search
  import opened Text
  import opened Host
  import opened PackageManager

  /** `CONFIG_FILES`, in the order they are looked for. */
  const ConfigFiles: seq<string> := [
    "jest.config.js",
    "jest.config.ts",
    "jest.config.mjs",
    "jest.config.cjs",
    "jest.config.json"
  ]

  /** The `workspaces` field of `package.json`. */
  datatype Workspaces =
    | WorkspacesArray(items: seq<string>)
    | WorkspacesObject(packages: Option<seq<string>>)
    | NoWorkspaces

  /**
   * The parts of `package.json` that are read: whether its `jest` field is
   * truthy, and its `workspaces` field.
   */
  datatype PackageJson = PackageJson(jest: bool, workspaces: Workspaces)

  /** `JSON.parse` of a `package.json` text, `None` when it throws or yields no object. */
  type PackageJsonParser = string -> Option<PackageJson>

  /** What `detectJestConfig` reports. */
  datatype ConfigInfo = ConfigInfo(
    projectPath: string,
    packageManager: Manager,
    configFile: Option<string>,
    isMonorepo: bool,
    workspaces: seq<string>)

  /** The project's `package.json`, when it exists and parses. */
  function ReadPackageJson(projectPath: string, fs: FileSystem, parse: PackageJsonParser): Option<PackageJson> {
    var path := PathJoin(projectPath, "package.json");
    if Exists(fs, path) then parse(fs(path).value) else None
  }

  // ---------------------------------------------------------------------
  // findJestConfig
  // ---------------------------------------------------------------------

  /** The position of the first of `names` present in the project's root, or `|names|` when none is. */
  function FirstPresent(projectPath: string, fs: FileSystem, names: seq<string>): (k: nat)
    ensures k <= |names|
    ensures forall j :: 0 <= j < k ==> !Exists(fs, PathJoin(projectPath, names[j]))
    ensures k < |names| ==> Exists(fs, PathJoin(projectPath, names[k]))
  {
    if |names| == 0 then 0
    else if Exists(fs, PathJoin(projectPath, names[0])) then 0
    else
      var k := FirstPresent(projectPath, fs, names[1..]);
      assert forall j :: 1 <= j < |names| ==> names[j] == names[1..][j - 1];
      k + 1
  }

  /** The path of the first of `names` present in the project's root. */
  function FirstConfigFile(projectPath: string, fs: FileSystem, names: seq<string>): (r: Option<string>)
    ensures r.None? <==> forall k :: 0 <= k < |names| ==> !Exists(fs, PathJoin(projectPath, names[k]))
    ensures r.Some? ==> exists k :: 0 <= k < |names| && r.value == PathJoin(projectPath, names[k]) &&
                                    Exists(fs, r.value) &&
                                    forall j :: 0 <= j < k ==> !Exists(fs, PathJoin(projectPath, names[j]))
  {
    var k := FirstPresent(projectPath, fs, names);
    if k < |names| then Some(PathJoin(projectPath, names[k])) else None
  }

  /**
   * `findJestConfig`: the first Jest configuration file present, else
   * `package.json` when its `jest` field is truthy, else `null`.
   */
  function FindJestConfig(projectPath: string, fs: FileSystem, parse: PackageJsonParser): (r: Option<string>)
    ensures r.Some? ==> Exists(fs, r.value)
    ensures FirstConfigFile(projectPath, fs, ConfigFiles).Some? ==> r == FirstConfigFile(projectPath, fs, ConfigFiles)
    ensures FirstConfigFile(projectPath, fs, ConfigFiles).None? ==>
              (r.Some? <==> ReadPackageJson(projectPath, fs, parse).Some? && ReadPackageJson(projectPath, fs, parse).value.jest)
    ensures FirstConfigFile(projectPath, fs, ConfigFiles).None? && r.Some? ==> r.value == PathJoin(projectPath, "package.json")
  {
    var found := FirstConfigFile(projectPath, fs, ConfigFiles);
    if found.Some? then found
    else
      match ReadPackageJson(projectPath, fs, parse)
      case Some(pkg) => if pkg.jest then Some(PathJoin(projectPath, "package.json")) else None
      case None => None
  }

  /** A configuration file takes precedence over a `jest` field in `package.json`. */
  lemma ConfigFileBeatsPackageJson(projectPath: string, fs: FileSystem, parse: PackageJsonParser, k: nat)
    requires k < |ConfigFiles| && Exists(fs, PathJoin(projectPath, ConfigFiles[k]))
    ensures FindJestConfig(projectPath, fs, parse).Some?
    ensures FindJestConfig(projectPath, fs, parse).value != PathJoin(projectPath, "package.json")
  {
    var found := FirstConfigFile(projectPath, fs, ConfigFiles);
    assert found.Some?;
    var j :| 0 <= j < |ConfigFiles| && found.value == PathJoin(projectPath, ConfigFiles[j]);
    assert ConfigFiles[j] != "package.json" by {
      NoConfigFileIsPackageJson(j);
    }
    PathJoinInjective(projectPath, ConfigFiles[j], "package.json");
  }

  /** None of the configuration file names is `package.json`. */
  lemma NoConfigFileIsPackageJson(j: nat)
    requires j < |ConfigFiles|
    ensures ConfigFiles[j] != "package.json"
  {
    assert ConfigFiles[j][0] == 'j';
  }

  // ---------------------------------------------------------------------
  // pnpm-workspace.yaml: `packages:\s*\n((?:\s+-\s*.+\n?)+)`
  // ---------------------------------------------------------------------

  /** `.+` anchored at `k`, reporting where it stops. */
  function LineRestEndAt(msg: string, k: nat): (r: Option<nat>)
    ensures r.Some? ==> k < r.value <= |msg|
  {
    if k < |msg| && !IsLineTerminator(msg[k]) then Some(LineEnd(msg, k)) else None
  }

  function LineRestEndAttempt(msg: string): (attempt: nat -> Option<nat>)
    ensures forall k :: attempt(k) == LineRestEndAt(msg, k)
  {
    (k: nat) => LineRestEndAt(msg, k)
  }

  /**
   * One list item `\s+-\s*.+\n?` anchored at `p`, reporting where it ends:
   * `\s+` must stop right before the dash, the `\s*` after it gives
   * characters back until `.+` can take the rest of a line, and a newline
   * after it is taken when present.
   */
  function ItemEnd(msg: string, p: nat): (r: Option<nat>)
    requires p <= |msg|
    ensures r.Some? ==> p < r.value <= |msg|
  {
    var w := RunEnd(msg, p, IsSpace);
    if p < w && w < |msg| && msg[w] == '-' then ItemRestEnd(msg, w) else None
  }

  /** The part of one list item after its dash at `w`: `\s*.+\n?`. */
  function ItemRestEnd(msg: string, w: nat): (r: Option<nat>)
    requires w < |msg|
    ensures r.Some? ==> w < r.value <= |msg|
  {
    match Rightmost<nat>(LineRestEndAttempt(msg), w + 1, RunEnd(msg, w + 1, IsSpace) + 1)
    case None => None
    case Some(f) => Some(NewlineAfter(msg, f.value))
  }

  /** `\n?` at `e`: the position after an optional newline there. */
  function NewlineAfter(msg: string, e: nat): (r: nat)
    ensures e <= r <= e + 1
  {
    if e < |msg| && msg[e] == '\n' then e + 1 else e
  }

  /** The greedy `(...)+` from `p`: where the last of the items matched in a row ends. */
  function ItemsEnd(msg: string, p: nat): (e: nat)
    requires p <= |msg|
    ensures p <= e <= |msg|
    decreases |msg| - p
  {
    match ItemEnd(msg, p)
    case None => p
    case Some(q) => ItemsEnd(msg, q)
  }

  /** `\n(...)+` with the newline at `n`: the captured block. */
  function BlockFrom(msg: string, n: nat): Option<string> {
    if n < |msg| && msg[n] == '\n' && ItemEnd(msg, n + 1).Some? then Some(msg[n + 1..ItemsEnd(msg, n + 1)])
    else None
  }

  function BlockFromAttempt(msg: string): (attempt: nat -> Option<string>)
    ensures forall n :: attempt(n) == BlockFrom(msg, n)
  {
    (n: nat) => BlockFrom(msg, n)
  }

  /**
   * The whole pattern anchored at `i`: `packages:`, then `\s*` takes all the
   * whitespace and gives it back until a newline followed by an item is found.
   */
  function BlockAt(msg: string, i: nat): Option<string> {
    if OccursAt(msg, i, "packages:") then
      (match Rightmost(BlockFromAttempt(msg), i + 9, RunEnd(msg, i + 9, IsSpace) + 1)
       case None => None
       case Some(f) => Some(f.value))
    else None
  }

  function BlockAttempt(msg: string): (attempt: nat -> Option<string>)
    ensures forall i :: attempt(i) == BlockAt(msg, i)
  {
    (i: nat) => BlockAt(msg, i)
  }

  /** `content.match(...)`: the block captured by the leftmost match. */
  function PackagesBlock(content: string): (r: Option<string>)
    ensures r.None? <==> forall i :: 0 <= i <= |content| ==> BlockAt(content, i).None?
  {
    match Leftmost(BlockAttempt(content), 0, |content| + 1)
    case None => None
    case Some(f) => Some(f.value)
  }

  predicate IsQuote(c: char) {
    c == '"' || c == '\''
  }

  /** Where `^\s*-\s*["']?` stops when it matches. */
  function LeadEnd(line: string): (r: Option<nat>)
    ensures r.Some? ==> r.value <= |line|
  {
    var w := RunEnd(line, 0, IsSpace);
    if w < |line| && line[w] == '-' then
      var v := RunEnd(line, w + 1, IsSpace);
      Some(if v < |line| && IsQuote(line[v]) then v + 1 else v)
    else None
  }

  /** `["']?\s*$` matches at `k`: an optional quote, then whitespace to the end. */
  predicate TailMatchAt(line: string, k: nat)
    requires k <= |line|
  {
    (k < |line| && IsQuote(line[k]) && RunEnd(line, k + 1, IsSpace) == |line|) || RunEnd(line, k, IsSpace) == |line|
  }

  /** The first position from `k` on where `["']?\s*$` matches. */
  function TailStart(line: string, k: nat): (t: nat)
    requires k <= |line|
    ensures k <= t <= |line| && TailMatchAt(line, t)
    ensures forall j :: k <= j < t ==> !TailMatchAt(line, j)
    decreases |line| - k
  {
    if TailMatchAt(line, k) then k else TailStart(line, k + 1)
  }

  /**
   * `line.replace(/^\s*-\s*["']?|["']?\s*$/g, "")`: the dash with its
   * surrounding whitespace and an opening quote go from the front, a closing
   * quote and trailing whitespace from the back.
   */
  function StripItem(line: string): (r: string)
    ensures |r| <= |line|
  {
    var m := (match LeadEnd(line) case Some(e) => e case None => 0);
    line[m..TailStart(line, m)]
  }

  /** `.map(strip).filter(Boolean)`. */
  function StrippedItems(lines: seq<string>): (r: seq<string>)
    ensures |r| <= |lines|
    ensures forall k :: 0 <= k < |r| ==> r[k] != ""
  {
    if |lines| == 0 then [] else Kept(lines[0]) + StrippedItems(lines[1..])
  }

  /** One line's contribution: its stripped item, unless that is empty. */
  function Kept(line: string): (r: seq<string>)
    ensures |r| <= 1 && forall k :: 0 <= k < |r| ==> r[k] != ""
  {
    var item := StripItem(line);
    if item == "" then [] else [item]
  }

  /**
   * Exactly the non-empty stripped items are kept, and nothing is left
   * exactly when every line strips to nothing.
   */
  lemma StrippedItemsMembers(lines: seq<string>)
    ensures forall x :: x in StrippedItems(lines) <==>
                          x != "" && exists k :: 0 <= k < |lines| && StripItem(lines[k]) == x
    ensures StrippedItems(lines) == [] <==> forall k :: 0 <= k < |lines| ==> StripItem(lines[k]) == ""
  {
    forall x {
      StrippedMember(lines, x);
    }
    StrippedEmpty(lines);
  }

  lemma {:induction false} StrippedMember(lines: seq<string>, x: string)
    ensures x in StrippedItems(lines) <==> x != "" && exists k :: 0 <= k < |lines| && StripItem(lines[k]) == x
    decreases |lines|
  {
    if |lines| > 0 {
      var tail := lines[1..];
      StrippedMember(tail, x);
      assert StrippedItems(lines) == Kept(lines[0]) + StrippedItems(tail);
      assert x in Kept(lines[0]) <==> x != "" && StripItem(lines[0]) == x;
      if x != "" && exists k :: 0 <= k < |lines| && StripItem(lines[k]) == x {
        var k :| 0 <= k < |lines| && StripItem(lines[k]) == x;
        if k > 0 {
          assert tail[k - 1] == lines[k];
        }
      }
      if x != "" && exists k :: 0 <= k < |tail| && StripItem(tail[k]) == x {
        var k :| 0 <= k < |tail| && StripItem(tail[k]) == x;
        assert lines[k + 1] == tail[k];
      }
    }
  }

  lemma {:induction false} StrippedEmpty(lines: seq<string>)
    ensures StrippedItems(lines) == [] <==> forall k :: 0 <= k < |lines| ==> StripItem(lines[k]) == ""
    decreases |lines|
  {
    if |lines| > 0 {
      StrippedEmpty(lines[1..]);
      assert forall k :: 1 <= k < |lines| ==> lines[k] == lines[1..][k - 1];
    }
  }

  /** Stripping keeps the order of the lines: the items of two runs of lines are those of each, in turn. */
  lemma {:induction false} StrippedItemsAppend(a: seq<string>, b: seq<string>)
    ensures StrippedItems(a + b) == StrippedItems(a) + StrippedItems(b)
    decreases |a|
  {
    if |a| > 0 {
      calc {
        StrippedItems(a + b);
        { assert (a + b)[0] == a[0]; assert (a + b)[1..] == a[1..] + b; }
        Kept(a[0]) + StrippedItems(a[1..] + b);
        { StrippedItemsAppend(a[1..], b); }
        Kept(a[0]) + (StrippedItems(a[1..]) + StrippedItems(b));
        Kept(a[0]) + StrippedItems(a[1..]) + StrippedItems(b);
      }
    } else {
      assert a + b == b;
    }
  }


  /** The package globs listed in a `pnpm-workspace.yaml` text. */
  function PnpmWorkspaces(content: string): (r: seq<string>)
    ensures forall k :: 0 <= k < |r| ==> r[k] != ""
    ensures PackagesBlock(content).None? ==> r == []
  {
    match PackagesBlock(content)
    case None => []
    case Some(block) => StrippedItems(Split(block, '\n'))
  }

  // ---------------------------------------------------------------------
  // detectWorkspaces and detectJestConfig
  // ---------------------------------------------------------------------

  /** The workspaces `package.json` declares: an array as is, else a truthy `packages` field. */
  function DeclaredWorkspaces(pkg: PackageJson): Option<seq<string>> {
    match pkg.workspaces
    case WorkspacesArray(items) => Some(items)
    case WorkspacesObject(Some(packages)) => Some(packages)
    case _ => None
  }

  /** `detectWorkspaces`. */
  function DetectWorkspaces(projectPath: string, fs: FileSystem, parse: PackageJsonParser): (r: seq<string>)
    ensures ReadPackageJson(projectPath, fs, parse).Some? &&
            DeclaredWorkspaces(ReadPackageJson(projectPath, fs, parse).value).Some? ==>
              r == DeclaredWorkspaces(ReadPackageJson(projectPath, fs, parse).value).value
    ensures (ReadPackageJson(projectPath, fs, parse).None? ||
             DeclaredWorkspaces(ReadPackageJson(projectPath, fs, parse).value).None?) ==>
              r == (var yaml := PathJoin(projectPath, "pnpm-workspace.yaml");
                    if Exists(fs, yaml) then PnpmWorkspaces(fs(yaml).value) else [])
  {
    var declared := (match ReadPackageJson(projectPath, fs, parse)
      case Some(pkg) => DeclaredWorkspaces(pkg)
      case None => None);
    if declared.Some? then declared.value
    else
      var yaml := PathJoin(projectPath, "pnpm-workspace.yaml");
      if Exists(fs, yaml) then PnpmWorkspaces(fs(yaml).value) else []
  }

  /** `detectJestConfig`. */
  function DetectJestConfig(projectPath: string, fs: FileSystem, parse: PackageJsonParser): (info: ConfigInfo)
    ensures info.projectPath == projectPath
    ensures info.isMonorepo <==> info.workspaces != []
    ensures info.configFile.Some? ==> Exists(fs, info.configFile.value)
    ensures info.packageManager == DetectPackageManager(projectPath, fs)
    ensures info.configFile == FindJestConfig(projectPath, fs, parse)
    ensures info.workspaces == DetectWorkspaces(projectPath, fs, parse)
  {
    var workspaces := DetectWorkspaces(projectPath, fs, parse);
    ConfigInfo(projectPath, DetectPackageManager(projectPath, fs), FindJestConfig(projectPath, fs, parse),
               |workspaces| > 0, workspaces)
  }

  /**
   * A `workspaces` array in `package.json` is returned as it is, even when
   * empty: the project is then no monorepo, whatever `pnpm-workspace.yaml`
   * lists.
   */
  lemma WorkspacesArrayWins(projectPath: string, fs: FileSystem, parse: PackageJsonParser, items: seq<string>)
    requires ReadPackageJson(projectPath, fs, parse).Some?
    requires ReadPackageJson(projectPath, fs, parse).value.workspaces == WorkspacesArray(items)
    ensures DetectJestConfig(projectPath, fs, parse).workspaces == items
    ensures DetectJestConfig(projectPath, fs, parse).isMonorepo <==> items != []
  {
  }

  // ---------------------------------------------------------------------
  // Reading back a pnpm-workspace.yaml written in the usual form
  // ---------------------------------------------------------------------

  /** A package glob that can be written unquoted on a YAML list line. */
  predicate PlainItem(x: string) {
    |x| > 0 && !IsSpace(x[0]) && !IsSpace(x[|x| - 1]) && !IsQuote(x[0]) && !IsQuote(x[|x| - 1]) &&
    forall k :: 0 <= k < |x| ==> !IsLineTerminator(x[k])
  }

  /** What a list line needs after its dash: a first character that is not whitespace, and one line. */
  predicate ListedItem(w: string) {
    |w| > 0 && !IsSpace(w[0]) && forall k :: 0 <= k < |w| ==> !IsLineTerminator(w[k])
  }

  /** How a glob is written on its list line: bare, or between a pair of quotes. */
  function Written(x: string, quote: Option<char>): string {
    match quote
    case None => x
    case Some(q) => [q] + x + [q]
  }

  /** An indentation of spaces. */
  predicate PlainIndent(indent: string) {
    |indent| > 0 && forall k :: 0 <= k < |indent| ==> indent[k] == ' '
  }

  /** A list line without its newline: `<indent>- <item>`. */
  function ItemText(indent: string, x: string): string {
    indent + "- " + x
  }

  /** The list lines of `items`, each ending in a newline. */
  function ItemLines(indent: string, items: seq<string>): string {
    if |items| == 0 then "" else ItemText(indent, items[0]) + "\n" + ItemLines(indent, items[1..])
  }

  /** A `pnpm-workspace.yaml` listing `items` under `packages:`. */
  function PnpmWorkspaceFile(indent: string, items: seq<string>): string {
    "packages:\n" + ItemLines(indent, items)
  }

  /** Where the parts of a list line sit. */
  lemma ItemTextLayout(indent: string, x: string)
    ensures var t := ItemText(indent, x);
            && |t| == |indent| + 2 + |x|
            && (forall k :: 0 <= k < |indent| ==> t[k] == indent[k])
            && t[|indent|] == '-' && t[|indent| + 1] == ' '
            && (forall k :: 0 <= k < |x| ==> t[|indent| + 2 + k] == x[k])
  {
  }

  /** A list line holds no newline. */
  lemma ItemTextOneLine(indent: string, x: string)
    requires PlainIndent(indent) && ListedItem(x)
    ensures '\n' !in ItemText(indent, x)
  {
    var t := ItemText(indent, x);
    ItemTextLayout(indent, x);
    forall k | 0 <= k < |t|
      ensures t[k] != '\n'
    {
      if k >= |indent| + 2 {
        assert t[k] == x[k - |indent| - 2];
      }
    }
  }

  /** A list line is matched by one item of the pattern, newline included. */
  lemma ItemMatches(msg: string, p: nat, indent: string, x: string)
    requires PlainIndent(indent) && ListedItem(x)
    requires p + |indent| + 3 + |x| <= |msg|
    requires forall k :: p <= k < p + |indent| ==> msg[k] == ' '
    requires msg[p + |indent|] == '-' && msg[p + |indent| + 1] == ' '
    requires forall k :: 0 <= k < |x| ==> msg[p + |indent| + 2 + k] == x[k]
    requires msg[p + |indent| + 2 + |x|] == '\n'
    ensures ItemEnd(msg, p) == Some(p + |indent| + 3 + |x|)
  {
    var w := p + |indent|;
    var v := w + 2;
    var e := v + |x|;
    assert RunEnd(msg, p, IsSpace) == w by {
      assert IsSpace(' ') && !IsSpace('-');
      RunEndIs(msg, p, IsSpace, w);
    }
    assert RunEnd(msg, w + 1, IsSpace) == v && !IsLineTerminator(msg[v]) by {
      assert IsSpace(' ') && !IsSpace(x[0]) && msg[v] == x[0];
      RunEndIs(msg, w + 1, IsSpace, v);
    }
    assert LineEnd(msg, v) == e by {
      forall k | v <= k < e
        ensures NotLineTerminator(msg[k])
      {
        assert msg[k] == x[k - v];
      }
      RunEndIs(msg, v, NotLineTerminator, e);
    }
    ItemRestEndIs(msg, w, e);
    ItemEndIs(msg, p, w);
  }

  /** After the dash at `w`, one space and a line ending in a newline at `e`: the item ends after the newline. */
  lemma ItemRestEndIs(msg: string, w: nat, e: nat)
    requires w + 2 < e < |msg| && msg[e] == '\n'
    requires RunEnd(msg, w + 1, IsSpace) == w + 2 && !IsLineTerminator(msg[w + 2])
    requires LineEnd(msg, w + 2) == e
    ensures ItemRestEnd(msg, w) == Some(e + 1)
  {
    assert LineRestEndAt(msg, w + 2) == Some(e);
    RightmostIs<nat>(LineRestEndAttempt(msg), w + 1, w + 3, w + 2);
  }

  /** Whitespace from `p` up to a dash at `w`: the item is what follows the dash. */
  lemma ItemEndIs(msg: string, p: nat, w: nat)
    requires p < w < |msg| && RunEnd(msg, p, IsSpace) == w && msg[w] == '-'
    ensures ItemEnd(msg, p) == ItemRestEnd(msg, w)
  {
  }

  /** A list line at `p` followed by `rest`: one item ends right before `rest`. */
  lemma ItemLineAt(msg: string, p: nat, indent: string, x: string, rest: string)
    requires PlainIndent(indent) && ListedItem(x)
    requires p <= |msg| && msg[p..] == ItemText(indent, x) + "\n" + rest
    ensures ItemEnd(msg, p) == Some(p + |indent| + 3 + |x|)
    ensures msg[p + |indent| + 3 + |x|..] == rest
  {
    var t := ItemText(indent, x);
    var line := t + "\n";
    ItemTextLayout(indent, x);
    assert forall k :: 0 <= k < |line| ==> msg[p + k] == line[k] by {
      forall k | 0 <= k < |line|
        ensures msg[p + k] == line[k]
      {
        assert msg[p..][k] == msg[p + k];
      }
    }
    assert forall k :: p <= k < p + |indent| ==> msg[k] == ' ' by {
      forall k | p <= k < p + |indent|
        ensures msg[k] == ' '
      {
        assert msg[p + (k - p)] == line[k - p] == indent[k - p];
      }
    }
    assert msg[p + |indent|] == line[|indent|];
    assert msg[p + |indent| + 1] == line[|indent| + 1];
    assert msg[p + |indent| + 2 + |x|] == line[|t|];
    forall k | 0 <= k < |x|
      ensures msg[p + |indent| + 2 + k] == x[k]
    {
      assert msg[p + (|indent| + 2 + k)] == line[|indent| + 2 + k] == t[|indent| + 2 + k];
    }
    ItemMatches(msg, p, indent, x);
    assert msg[p + |line|..] == msg[p..][|line|..];
  }

  /** The list lines are matched item after item, up to their end. */
  lemma {:induction false} ItemsMatch(msg: string, p: nat, indent: string, items: seq<string>)
    requires PlainIndent(indent) && forall k :: 0 <= k < |items| ==> ListedItem(items[k])
    requires p <= |msg| && msg[p..] == ItemLines(indent, items)
    ensures ItemsEnd(msg, p) == |msg|
    decreases |items|
  {
    if |items| == 0 {
      assert |msg| == p;
      assert ItemEnd(msg, p).None?;
    } else {
      var q := p + |indent| + 3 + |items[0]|;
      assert ItemEnd(msg, p) == Some(q) && msg[q..] == ItemLines(indent, items[1..]) by {
        assert ItemLines(indent, items) == ItemText(indent, items[0]) + "\n" + ItemLines(indent, items[1..]);
        ItemLineAt(msg, p, indent, items[0], ItemLines(indent, items[1..]));
      }
      assert forall k :: 0 <= k < |items[1..]| ==> ListedItem(items[1..][k]) by {
        forall k | 0 <= k < |items[1..]|
          ensures ListedItem(items[1..][k])
        {
          assert items[1..][k] == items[k + 1];
        }
      }
      ItemsMatch(msg, q, indent, items[1..]);
      ItemsEndStep(msg, p, q);
    }
  }

  /** After one item, the run of items goes on from where it ends. */
  lemma ItemsEndStep(msg: string, p: nat, q: nat)
    requires p <= |msg| && ItemEnd(msg, p) == Some(q)
    ensures ItemsEnd(msg, p) == ItemsEnd(msg, q)
  {
  }

  /** The list lines without their newlines. */
  function ItemTexts(indent: string, items: seq<string>): seq<string> {
    if |items| == 0 then [] else [ItemText(indent, items[0])] + ItemTexts(indent, items[1..])
  }

  /** The list lines split at newlines: one piece per line and an empty last piece. */
  lemma {:induction false} SplitItemLines(indent: string, items: seq<string>)
    requires PlainIndent(indent) && forall k :: 0 <= k < |items| ==> ListedItem(items[k])
    ensures Split(ItemLines(indent, items), '\n') == ItemTexts(indent, items) + [""]
    decreases |items|
  {
    if |items| == 0 {
      assert Split("", '\n') == [""];
    } else {
      var t := ItemText(indent, items[0]);
      var rest := ItemLines(indent, items[1..]);
      ItemTextOneLine(indent, items[0]);
      SplitAfter(t, '\n', rest);
      assert ItemLines(indent, items) == t + ['\n'] + rest;
      SplitItemLines(indent, items[1..]);
    }
  }

  /** Stripping a list line gives back its item. */
  lemma StripItemText(indent: string, x: string)
    requires PlainIndent(indent) && PlainItem(x)
    ensures StripItem(ItemText(indent, x)) == x
  {
    var t := ItemText(indent, x);
    var w := |indent|;
    assert LeadEnd(t) == Some(w + 2) && t[w + 2..] == x by {
      ItemTextLayout(indent, x);
      LeadEndIs(t, w);
    }
    assert TailStart(t, w + 2) == |t| by {
      ItemTextLayout(indent, x);
      assert t[|t| - 1] == x[|x| - 1];
      TailStartAtEnd(t, w + 2);
    }
  }

  /** A glob written bare or quoted fits a list line and strips back to itself. */
  lemma StripWritten(indent: string, x: string, quote: Option<char>)
    requires PlainIndent(indent) && PlainItem(x)
    requires quote.Some? ==> IsQuote(quote.value)
    ensures ListedItem(Written(x, quote))
    ensures StripItem(ItemText(indent, Written(x, quote))) == x
  {
    match quote
    case None =>
      StripItemText(indent, x);
    case Some(q) =>
      var w := Written(x, quote);
      assert !IsSpace(q) && !IsLineTerminator(q);
      assert forall k :: 0 <= k < |w| ==> w[k] == q || w[k] == x[k - 1];
      StripQuotedItem(indent, q, x);
  }

  /** Stripping `<indent>- 'glob'` removes both quotes. */
  lemma StripQuotedItem(indent: string, q: char, x: string)
    requires PlainIndent(indent) && PlainItem(x) && IsQuote(q)
    ensures StripItem(ItemText(indent, [q] + x + [q])) == x
  {
    var t := ItemText(indent, [q] + x + [q]);
    var w := |indent|;
    assert t == indent + "- " + [q] + x + [q];
    assert t[w + 3..|t| - 1] == x;
    assert LeadEnd(t) == Some(w + 3) by {
      ItemTextLayout(indent, [q] + x + [q]);
      LeadEndQuoted(t, w);
    }
    assert TailStart(t, w + 3) == |t| - 1 by {
      TailStartAtQuote(t, w + 3);
    }
  }

  /** `^\s*-\s*["']?` on a line of spaces, a dash, one space and a quote takes the quote too. */
  lemma LeadEndQuoted(line: string, w: nat)
    requires w + 2 < |line|
    requires forall k :: 0 <= k < w ==> line[k] == ' '
    requires line[w] == '-' && line[w + 1] == ' '
    requires IsQuote(line[w + 2])
    ensures LeadEnd(line) == Some(w + 3)
  {
    assert IsSpace(' ') && !IsSpace('-') && !IsSpace(line[w + 2]);
    RunEndIs(line, 0, IsSpace, w);
    RunEndIs(line, w + 1, IsSpace, w + 2);
  }

  /** A line ending in a quote keeps everything from `k` up to that quote. */
  lemma TailStartAtQuote(line: string, k: nat)
    requires k < |line| && IsQuote(line[|line| - 1])
    ensures TailStart(line, k) == |line| - 1
  {
    assert !IsSpace(line[|line| - 1]);
    forall j | k <= j < |line| - 1
      ensures !TailMatchAt(line, j)
    {
      assert RunEnd(line, j + 1, IsSpace) < |line|;
      assert RunEnd(line, j, IsSpace) < |line|;
    }
    assert RunEnd(line, |line|, IsSpace) == |line|;
    TailStartIs(line, k, |line| - 1);
  }

  /** `^\s*-\s*["']?` on a line of spaces, a dash, one space and a plain character. */
  lemma LeadEndIs(line: string, w: nat)
    requires w + 2 < |line|
    requires forall k :: 0 <= k < w ==> line[k] == ' '
    requires line[w] == '-' && line[w + 1] == ' '
    requires !IsSpace(line[w + 2]) && !IsQuote(line[w + 2])
    ensures LeadEnd(line) == Some(w + 2)
  {
    assert IsSpace(' ') && !IsSpace('-');
    RunEndIs(line, 0, IsSpace, w);
    RunEndIs(line, w + 1, IsSpace, w + 2);
  }

  /** A line ending in neither whitespace nor a quote keeps everything from `k` on. */
  lemma TailStartAtEnd(line: string, k: nat)
    requires k < |line| && !IsSpace(line[|line| - 1]) && !IsQuote(line[|line| - 1])
    ensures TailStart(line, k) == |line|
  {
    forall j | k <= j < |line|
      ensures !TailMatchAt(line, j)
    {
      if j + 1 < |line| {
        assert RunEnd(line, j + 1, IsSpace) < |line|;
      }
    }
    TailStartIs(line, k, |line|);
  }

  /** The leftmost tail match is determined by the positions where it fails. */
  lemma TailStartIs(line: string, k: nat, t: nat)
    requires k <= t <= |line| && TailMatchAt(line, t)
    requires forall j :: k <= j < t ==> !TailMatchAt(line, j)
    ensures TailStart(line, k) == t
    decreases t - k
  {
  }

  /** Stripping the lines and dropping the empty ones gives back what each line strips to. */
  lemma {:induction false} StripItemTexts(indent: string, ws: seq<string>, items: seq<string>)
    requires |ws| == |items|
    requires forall k :: 0 <= k < |ws| ==> items[k] != "" && StripItem(ItemText(indent, ws[k])) == items[k]
    ensures StrippedItems(ItemTexts(indent, ws) + [""]) == items
    decreases |ws|
  {
    if |ws| == 0 {
      StrippedItemsOfEmptyLine();
    } else {
      var rest := ItemTexts(indent, ws[1..]) + [""];
      assert StrippedItems(rest) == items[1..] by {
        forall k | 0 <= k < |ws[1..]|
          ensures items[1..][k] != "" && StripItem(ItemText(indent, ws[1..][k])) == items[1..][k]
        {
          assert ws[1..][k] == ws[k + 1] && items[1..][k] == items[k + 1];
        }
        StripItemTexts(indent, ws[1..], items[1..]);
      }
      assert ItemTexts(indent, ws) == [ItemText(indent, ws[0])] + ItemTexts(indent, ws[1..]);
      assert ItemTexts(indent, ws) + [""] == [ItemText(indent, ws[0])] + rest;
      StrippedItemsCons(ItemText(indent, ws[0]), rest, items[0]);
      assert items == [items[0]] + items[1..];
    }
  }

  /** The empty line after the last newline leaves nothing. */
  lemma StrippedItemsOfEmptyLine()
    ensures StrippedItems([""]) == []
  {
    assert StripItem("") == "";
    assert [""][1..] == [];
  }

  /** A line that strips to a non-empty item puts that item first. */
  lemma StrippedItemsCons(line: string, rest: seq<string>, x: string)
    requires StripItem(line) == x && x != ""
    ensures StrippedItems([line] + rest) == [x] + StrippedItems(rest)
  {
    assert ([line] + rest)[1..] == rest;
  }

  /** The list entries of `items`, each written bare or quoted as `quotes` says. */
  function WrittenItems(items: seq<string>, quotes: seq<Option<char>>): (ws: seq<string>)
    requires |quotes| == |items|
    ensures |ws| == |items| && forall k :: 0 <= k < |ws| ==> ws[k] == Written(items[k], quotes[k])
  {
    seq(|items|, k requires 0 <= k < |items| => Written(items[k], quotes[k]))
  }

  /**
   * A `pnpm-workspace.yaml` listing package globs, one per indented `- `
   * line under `packages:`, each bare or between quotes, is read back as
   * exactly those globs.
   */
  lemma PnpmRoundTrip(indent: string, items: seq<string>, quotes: seq<Option<char>>)
    requires PlainIndent(indent) && |items| > 0 && |quotes| == |items|
    requires forall k :: 0 <= k < |items| ==> PlainItem(items[k])
    requires forall k :: 0 <= k < |quotes| && quotes[k].Some? ==> IsQuote(quotes[k].value)
    ensures PnpmWorkspaces(PnpmWorkspaceFile(indent, WrittenItems(items, quotes))) == items
  {
    var ws := WrittenItems(items, quotes);
    var content := PnpmWorkspaceFile(indent, ws);
    var body := ItemLines(indent, ws);
    forall k | 0 <= k < |ws|
      ensures ListedItem(ws[k]) && items[k] != "" && StripItem(ItemText(indent, ws[k])) == items[k]
    {
      StripWritten(indent, items[k], quotes[k]);
    }
    PnpmFileBlock(content, indent, ws, body);
    SplitItemLines(indent, ws);
    StripItemTexts(indent, ws, items);
  }

  /** The block the pattern captures from the file is its list lines. */
  lemma PnpmFileBlock(content: string, indent: string, items: seq<string>, body: string)
    requires PlainIndent(indent) && |items| > 0
    requires forall k :: 0 <= k < |items| ==> ListedItem(items[k])
    requires body == ItemLines(indent, items) && content == "packages:\n" + body
    ensures PackagesBlock(content) == Some(body)
  {
    assert content[..9] == "packages:" && content[9] == '\n' && content[10..] == body;
    BlockAtStart(content, indent, items);
    PackagesBlockAtStart(content);
  }

  /** `packages:`, a newline and list lines: the pattern matches at the start and captures the lines. */
  lemma BlockAtStart(content: string, indent: string, items: seq<string>)
    requires PlainIndent(indent) && |items| > 0
    requires forall k :: 0 <= k < |items| ==> ListedItem(items[k])
    requires 10 <= |content| && content[..9] == "packages:" && content[9] == '\n'
    requires content[10..] == ItemLines(indent, items)
    ensures BlockAt(content, 0) == Some(content[10..])
  {
    var n := |indent|;
    assert BlockFrom(content, 9) == Some(content[10..]) by {
      BlockFromLines(content, 9, indent, items);
    }
    assert 11 + n < |content| && (forall k :: 10 <= k < 10 + n ==> content[k] == ' ') && content[10 + n] == '-' by {
      FirstLineLayout(content, indent, items);
    }
    calc {
      BlockAt(content, 0);
      { BlockStart(content, n); BlockAtIs(content, n); }
      BlockFrom(content, 9);
    }
  }

  /** When only the first newline can start the block, the match at the start captures what it starts. */
  lemma BlockAtIs(content: string, n: nat)
    requires OccursAt(content, 0, "packages:") && RunEnd(content, 9, IsSpace) == 10 + n
    requires forall m :: 9 < m <= 10 + n ==> BlockFrom(content, m).None?
    requires BlockFrom(content, 9).Some?
    ensures BlockAt(content, 0) == BlockFrom(content, 9)
  {
    RightmostIs(BlockFromAttempt(content), 9, 10 + n + 1, 9);
  }

  /** A match at the very start is the leftmost one. */
  lemma PackagesBlockAtStart(content: string)
    requires BlockAt(content, 0).Some?
    ensures PackagesBlock(content) == BlockAt(content, 0)
  {
    LeftmostIs(BlockAttempt(content), 0, |content| + 1, 0);
  }

  /** A newline followed by list lines up to the end starts a block of all those lines. */
  lemma BlockFromLines(msg: string, n: nat, indent: string, items: seq<string>)
    requires PlainIndent(indent) && |items| > 0
    requires forall k :: 0 <= k < |items| ==> ListedItem(items[k])
    requires n < |msg| && msg[n] == '\n' && msg[n + 1..] == ItemLines(indent, items)
    ensures BlockFrom(msg, n) == Some(msg[n + 1..])
  {
    assert ItemEnd(msg, n + 1).Some? && ItemsEnd(msg, n + 1) == |msg| by {
      var rest := ItemLines(indent, items[1..]);
      assert ItemLines(indent, items) == ItemText(indent, items[0]) + "\n" + rest;
      ItemLineAt(msg, n + 1, indent, items[0], rest);
      ItemsMatch(msg, n + 1, indent, items);
    }
    BlockFromIs(msg, n);
  }

  /** A block whose items run to the end of the text captures the rest of the text. */
  lemma BlockFromIs(msg: string, n: nat)
    requires n < |msg| && msg[n] == '\n'
    requires ItemEnd(msg, n + 1).Some? && ItemsEnd(msg, n + 1) == |msg|
    ensures BlockFrom(msg, n) == Some(msg[n + 1..])
  {
    var e := ItemsEnd(msg, n + 1);
    assert e == |msg|;
    assert msg[n + 1..e] == msg[n + 1..];
    assert BlockFrom(msg, n) == Some(msg[n + 1..e]);
  }

  /** The first list line after `packages:` starts with its indentation and dash. */
  lemma FirstLineLayout(content: string, indent: string, items: seq<string>)
    requires PlainIndent(indent) && |items| > 0
    requires 10 <= |content| && content[10..] == ItemLines(indent, items)
    ensures 11 + |indent| < |content|
    ensures forall k :: 10 <= k < 10 + |indent| ==> content[k] == ' '
    ensures content[10 + |indent|] == '-'
  {
    var t := ItemText(indent, items[0]);
    var body := content[10..];
    assert body == t + "\n" + ItemLines(indent, items[1..]);
    ItemTextLayout(indent, items[0]);
    forall k | 10 <= k < 10 + |indent|
      ensures content[k] == ' '
    {
      assert content[k] == body[k - 10] == t[k - 10] == indent[k - 10];
    }
    assert content[10 + |indent|] == body[|indent|] == t[|indent|];
  }

  /**
   * After `packages:` and its newline, the whitespace run is the first
   * line's indentation, and only the newline can start the block.
   */
  lemma BlockStart(content: string, n: nat)
    requires 11 + n < |content|
    requires content[..9] == "packages:" && content[9] == '\n'
    requires forall k :: 10 <= k < 10 + n ==> content[k] == ' '
    requires content[10 + n] == '-'
    ensures OccursAt(content, 0, "packages:")
    ensures RunEnd(content, 9, IsSpace) == 10 + n
    ensures forall m :: 9 < m <= 10 + n ==> BlockFrom(content, m).None?
  {
    assert IsSpace(' ') && IsSpace('\n') && !IsSpace('-');
    RunEndIs(content, 9, IsSpace, 10 + n);
  }

  // The usual one-line form: `packages:`, then an indented dash and the glob of all packages.
  lemma PnpmExample()
    ensures PnpmWorkspaces("packages:\n    - packages/*\n") == ["packages/*"]
  {
    assert PlainItem("packages/*");
    assert PlainIndent("    ");
    assert PnpmWorkspaceFile("    ", ["packages/*"]) == "packages:\n    - packages/*\n";
    assert WrittenItems(["packages/*"], [None]) == ["packages/*"];
    PnpmRoundTrip("    ", ["packages/*"], [None]);
  }

  // A quoted glob loses its quotes.
  lemma PnpmQuotedExample()
    ensures PnpmWorkspaces("packages:\n  - 'packages/*'\n") == ["packages/*"]
  {
    assert PlainItem("packages/*");
    assert PlainIndent("  ");
    var ws := WrittenItems(["packages/*"], [Some('\'')]);
    assert ws[0] == ['\''] + "packages/*" + ['\''] == "'packages/*'";
    assert ws == [ws[0]];
    assert PnpmWorkspaceFile("  ", ["'packages/*'"]) == "packages:\n  - 'packages/*'\n";
    PnpmRoundTrip("  ", ["packages/*"], [Some('\'')]);
  }

}

=== FILE: jest_report.dfy ===
/**
 * The shapes of data the result parser reads and writes: the fields of
 * Jest's `--json` report that it uses, and the normalised `TestResults`
 * handed to callers.
 */
module JestReport {
  import opened Wrappers

  /**
   * A file's or assertion's status; Jest also reports statuses such as
   * `todo`. The parser compares the status string, so it classifies a
   * status by its name (`StatusName`): an `OtherStatus("passed")` counts as
   * passed. `StatusOf` is the decoding that gives `passed`, `failed` and
   * `pending` their own constructors.
   */
  datatype Status = Passed | Failed | Pending | OtherStatus(name: string)

  /** The status string as it appears in the report. */
  function StatusName(s: Status): string
  {
    match s
    case Passed => "passed"
    case Failed => "failed"
    case Pending => "pending"
    case OtherStatus(name) => name
  }

  /** A status as decoding produces it: a known name is never an `OtherStatus`. */
  predicate Canonical(s: Status)
  {
    s.OtherStatus? ==> s.name != "passed" && s.name != "failed" && s.name != "pending"
  }

  /** Decoding of a status string; the parser compares it with `"passed"` and `"failed"`. */
  function StatusOf(name: string): (s: Status)
    ensures Canonical(s)
    ensures s == Passed <==> name == "passed"
    ensures s == Failed <==> name == "failed"
    ensures s == Pending <==> name == "pending"
  {
    if name == "passed" then Passed
    else if name == "failed" then Failed
    else if name == "pending" then Pending
    else OtherStatus(name)
  }

  /** Decoding loses nothing: names and canonical statuses correspond one to one. */
  lemma StatusRoundTrip(name: string, s: Status)
    ensures StatusName(StatusOf(name)) == name
    ensures Canonical(s) ==> StatusOf(StatusName(s)) == s
  {
  }

  /** `location`, present when Jest was asked for test locations; either field may be null. */
  datatype Location = Location(line: Option<int>, column: Option<int>)

  /** One test case of a file. */
  datatype AssertionResult = AssertionResult(
    ancestorTitles: seq<string>,
    title: string,
    status: Status,
    failureMessages: seq<string>,
    location: Option<Location>)

  /**
   * One test file. `startTime`/`endTime` are `None` when absent; a present
   * value of 0 is kept, since only the parser decides what counts as set.
   */
  datatype FileResult = FileResult(
    name: string,
    status: Status,
    assertionResults: seq<AssertionResult>,
    startTime: Option<int>,
    endTime: Option<int>)

  /** The top level of Jest's JSON report. */
  datatype Report = Report(
    success: bool,
    numTotalTests: int,
    numPassedTests: int,
    numFailedTests: int,
    numPendingTests: int,
    testResults: seq<FileResult>)

  datatype TestPass = TestPass(testName: string, fullName: string, file: string)

  datatype TestFailure = TestFailure(
    testName: string,
    fullName: string,
    file: string,
    line: Option<int>,
    matcherName: Option<string>,
    expected: Option<string>,
    received: Option<string>,
    message: string)

  datatype Summary = Summary(total: int, passed: int, failed: int, skipped: int, duration: int)

  /** The normalised result of one run. */
  datatype TestResults = TestResults(
    command: string,
    success: bool,
    summary: Summary,
    passes: seq<TestPass>,
    failures: seq<TestFailure>)
}

=== FILE: package_manager.dfy ===
/**
 * Which package manager a project uses, judged by the lockfile present in
 * its root, and the command lines each manager runs scripts and package
 * binaries with.
 */
module PackageManager {
  import opened Wrappers
  import opened Host

  datatype Manager = Npm | Pnpm | Yarn | Bun

  datatype Lockfile = Lockfile(filename: string, manager: Manager)

  /** `LOCKFILES`, in the order they are checked. */
  const Lockfiles: seq<Lockfile> := [
    Lockfile("pnpm-lock.yaml", Pnpm),
    Lockfile("yarn.lock", Yarn),
    Lockfile("bun.lockb", Bun),
    Lockfile("package-lock.json", Npm)
  ]

  /** Whether the lockfile `lock` sits in the project's root. */
  predicate HasLockfile(projectPath: string, fs: FileSystem, lock: Lockfile) {
    Exists(fs, PathJoin(projectPath, lock.filename))
  }

  /** The manager of the first lockfile of `locks` present, or `npm`. */
  function FirstLockfile(projectPath: string, fs: FileSystem, locks: seq<Lockfile>): (m: Manager)
    ensures (forall k :: 0 <= k < |locks| ==> !HasLockfile(projectPath, fs, locks[k])) ==> m == Npm
    ensures forall k :: 0 <= k < |locks| && HasLockfile(projectPath, fs, locks[k]) &&
                        (forall j :: 0 <= j < k ==> !HasLockfile(projectPath, fs, locks[j])) ==>
                          m == locks[k].manager
  {
    if |locks| == 0 then Npm
    else if HasLockfile(projectPath, fs, locks[0]) then locks[0].manager
    else
      var m := FirstLockfile(projectPath, fs, locks[1..]);
      assert forall k :: 1 <= k < |locks| ==> locks[k] == locks[1..][k - 1];
      m
  }

  /** `detectPackageManager`. */
  function DetectPackageManager(projectPath: string, fs: FileSystem): (m: Manager)
    ensures m == Pnpm <==> HasLockfile(projectPath, fs, Lockfiles[0])
    ensures m == Yarn <==> !HasLockfile(projectPath, fs, Lockfiles[0]) && HasLockfile(projectPath, fs, Lockfiles[1])
    ensures m == Bun <==> !HasLockfile(projectPath, fs, Lockfiles[0]) && !HasLockfile(projectPath, fs, Lockfiles[1]) &&
                          HasLockfile(projectPath, fs, Lockfiles[2])
    ensures m == Npm <==> !HasLockfile(projectPath, fs, Lockfiles[0]) && !HasLockfile(projectPath, fs, Lockfiles[1]) &&
                          !HasLockfile(projectPath, fs, Lockfiles[2])
  {
    FirstLockfileUnrolled(projectPath, fs);
    FirstLockfile(projectPath, fs, Lockfiles)
  }

  /** The lockfile search over `LOCKFILES`, written out in order. */
  lemma FirstLockfileUnrolled(projectPath: string, fs: FileSystem)
    ensures FirstLockfile(projectPath, fs, Lockfiles) ==
              if HasLockfile(projectPath, fs, Lockfiles[0]) then Pnpm
              else if HasLockfile(projectPath, fs, Lockfiles[1]) then Yarn
              else if HasLockfile(projectPath, fs, Lockfiles[2]) then Bun
              else Npm
  {
    var l := Lockfiles;
    assert l[1..][0] == l[1] && l[1..][1..][0] == l[2] && l[1..][1..][1..][0] == l[3];
    assert |l[1..][1..][1..][1..]| == 0;
  }

  /**
   * Only which lockfiles exist matters: two file systems that agree on that
   * give the same manager, whatever else they hold.
   */
  lemma DetectionDependsOnLockfilesOnly(projectPath: string, fs1: FileSystem, fs2: FileSystem)
    requires forall k :: 0 <= k < |Lockfiles| ==>
               (HasLockfile(projectPath, fs1, Lockfiles[k]) <==> HasLockfile(projectPath, fs2, Lockfiles[k]))
    ensures DetectPackageManager(projectPath, fs1) == DetectPackageManager(projectPath, fs2)
  {
    assert forall k :: 0 <= k < 3 ==>
             (HasLockfile(projectPath, fs1, Lockfiles[k]) <==> HasLockfile(projectPath, fs2, Lockfiles[k]));
  }

  /** `package-lock.json` decides nothing: the project is on npm exactly when no other lockfile is present. */
  lemma NpmLockfileIsDefault(projectPath: string, fs: FileSystem)
    ensures DetectPackageManager(projectPath, fs) == Npm <==>
              forall k :: 0 <= k < |Lockfiles| && Lockfiles[k].manager != Npm ==> !HasLockfile(projectPath, fs, Lockfiles[k])
  {
    assert Lockfiles[0].manager == Pnpm && Lockfiles[1].manager == Yarn && Lockfiles[2].manager == Bun;
  }

  /** `getRunCommand`. */
  function RunCommand(m: Manager): (c: string)
    ensures |c| > 0 && c[0] != ' ' && c[|c| - 1] != ' '
  {
    match m
    case Npm => "npm run"
    case Pnpm => "pnpm run"
    case Yarn => "yarn"
    case Bun => "bun run"
  }

  /** `getExecCommand`. */
  function ExecCommand(m: Manager): (c: string)
    ensures |c| > 0 && c[0] != ' ' && c[|c| - 1] != ' '
  {
    match m
    case Npm => "npx"
    case Pnpm => "pnpm exec"
    case Yarn => "yarn"
    case Bun => "bunx"
  }

  /** Different managers run scripts with different commands, and binaries likewise. */
  lemma CommandsDistinguishManagers(m1: Manager, m2: Manager)
    ensures RunCommand(m1) == RunCommand(m2) ==> m1 == m2
    ensures ExecCommand(m1) == ExecCommand(m2) ==> m1 == m2
  {
    if m1 != m2 {
      assert RunCommand(m1)[..3] != RunCommand(m2)[..3] || |RunCommand(m1)| != |RunCommand(m2)|;
      assert ExecCommand(m1)[..3] != ExecCommand(m2)[..3] || |ExecCommand(m1)| != |ExecCommand(m2)|;
    }
  }
}

=== FILE: result_parser.dfy ===
/**
 * Turning Jest's `--json` report into `TestResults`: cutting the JSON text
 * out of the surrounding console output, then walking the files and their
 * assertions in order, collecting the passed and the failed ones and
 * summing the files' run times.
 */
module ResultParser {
  import opened Wrappers
  import opened Text
  import opened JestReport
  import opened FailureDetail

  // ---------------------------------------------------------------------
  // extractJsonFromOutput
  // ---------------------------------------------------------------------

  /** Some `{` occurs before some `}`. */
  predicate HasBracePair(s: string) {
    exists i, j :: 0 <= i < j < |s| && s[i] == '{' && s[j] == '}'
  }

  /** `s[i]` is the first `{` of `s`, `s[j]` its last `}`, and the first comes before the last. */
  predicate OutermostBraces(s: string, i: nat, j: nat) {
    i < j < |s| && s[i] == '{' && s[j] == '}' && '{' !in s[..i] && '}' !in s[j + 1..]
  }

  /**
   * `extractJsonFromOutput`: the text from the first `{` through the last
   * `}`, or `null` when either is missing or the last `}` comes first.
   */
  function ExtractJsonFromOutput(output: string): (r: Option<string>)
    ensures r.None? <==> !HasBracePair(output)
    ensures r.Some? ==> exists i: nat, j: nat :: OutermostBraces(output, i, j) && r.value == output[i..j + 1]
    ensures r.Some? ==> |r.value| >= 2 && r.value[0] == '{' && r.value[|r.value| - 1] == '}'
  {
    match (IndexOf(output, '{'), LastIndexOf(output, '}'))
    case (Some(start), Some(end)) =>
      if end <= start then None
      else
        assert OutermostBraces(output, start, end);
        assert output[start..end + 1][0] == '{';
        Some(output[start..end + 1])
    case _ => None
  }

  /**
   * JSON text framed by output holding no `{` before it and no `}` after it
   * is cut out exactly.
   */
  lemma ExtractJsonFramed(pre: string, json: string, post: string)
    requires '{' !in pre && '}' !in post
    requires |json| >= 2 && json[0] == '{' && json[|json| - 1] == '}'
    ensures ExtractJsonFromOutput(pre + json + post) == Some(json)
  {
    var s := pre + json + post;
    var a, b := |pre|, |pre| + |json| - 1;
    assert s[a] == '{' && s[b] == '}';
    assert forall k :: 0 <= k < a ==> s[k] == pre[k];
    assert forall k :: 0 <= k < a ==> s[k] != '{';
    assert forall k :: b < k < |s| ==> s[k] == post[k - b - 1];
    assert forall k :: b < k < |s| ==> s[k] != '}';
    ExtractJsonSpan(s, a, b);
    assert s[a..b + 1] == json;
  }

  /** The extracted text runs from a `{` with none before it to a `}` with none after it. */
  lemma ExtractJsonSpan(s: string, a: nat, b: nat)
    requires a < b < |s| && s[a] == '{' && s[b] == '}'
    requires forall k :: 0 <= k < a ==> s[k] != '{'
    requires forall k :: b < k < |s| ==> s[k] != '}'
    ensures ExtractJsonFromOutput(s) == Some(s[a..b + 1])
  {
    assert IndexOf(s, '{') == Some(a);
    assert LastIndexOf(s, '}') == Some(b);
  }

  /** Extracting again from the extracted text changes nothing. */
  lemma ExtractJsonIdempotent(output: string)
    requires ExtractJsonFromOutput(output).Some?
    ensures ExtractJsonFromOutput(ExtractJsonFromOutput(output).value) == ExtractJsonFromOutput(output)
  {
    ExtractJsonOfJson(ExtractJsonFromOutput(output).value);
  }

  /** Text that starts with `{` and ends with `}` is cut out whole. */
  lemma ExtractJsonOfJson(json: string)
    requires |json| >= 2 && json[0] == '{' && json[|json| - 1] == '}'
    ensures ExtractJsonFromOutput(json) == Some(json)
  {
    ExtractJsonSpan(json, 0, |json| - 1);
    assert json[0..|json|] == json;
  }

  // ---------------------------------------------------------------------
  // parseJestOutput: one assertion at a time
  // ---------------------------------------------------------------------

  /** The describe-block titles and the test title joined by ` > `. */
  function FullName(a: AssertionResult): string {
    Join(a.ancestorTitles + [a.title], " > ")
  }

  /** A top-level test is named by its title; a nested one by its blocks' names, ` > ` and its title. */
  lemma FullNameShape(a: AssertionResult)
    ensures a.ancestorTitles == [] ==> FullName(a) == a.title
    ensures a.ancestorTitles != [] ==> FullName(a) == Join(a.ancestorTitles, " > ") + " > " + a.title
  {
    if a.ancestorTitles == [] {
      assert a.ancestorTitles + [a.title] == [a.title];
    } else {
      JoinAppend(a.ancestorTitles, [a.title], " > ");
    }
  }

  /** The pass recorded for an assertion of `file`. */
  function ToPass(file: FileResult, a: AssertionResult): (p: TestPass)
    ensures p.testName == a.title && p.file == file.name
    ensures p.fullName == FullName(a)
  {
    TestPass(a.title, FullName(a), file.name)
  }

  /** The line of a failure: the reported location's line, else the one found in the stack trace. */
  function FailureLine(a: AssertionResult, message: string, file: string): (line: Option<int>)
    ensures a.location.Some? && a.location.value.line.Some? ==> line == a.location.value.line
    ensures (a.location.None? || a.location.value.line.None?) ==>
              (line.Some? <==> ExtractLineNumber(message, file).Some?)
    ensures (a.location.None? || a.location.value.line.None?) && line.Some? ==>
              line.value == ExtractLineNumber(message, file).value
  {
    if a.location.Some? && a.location.value.line.Some? then a.location.value.line
    else match ExtractLineNumber(message, file)
      case Some(n) => Some(n)
      case None => None
  }

  /** The failure recorded for an assertion of `file`: its messages joined by newlines, then mined. */
  function ToFailure(file: FileResult, a: AssertionResult): (f: TestFailure)
    ensures f.testName == a.title && f.file == file.name
    ensures |f.message| <= |Join(a.failureMessages, "\n")|
    ensures f.matcherName.Some? ==> IsMatcherName(f.matcherName.value)
    ensures f.fullName == FullName(a)
    ensures var message := Join(a.failureMessages, "\n");
            && f.line == FailureLine(a, message, file.name)
            && f.matcherName == ExtractExpectedReceived(message).matcherName
            && f.expected == ExtractExpectedReceived(message).expected
            && f.received == ExtractExpectedReceived(message).received
            && f.message == CleanErrorMessage(message)
  {
    var message := Join(a.failureMessages, "\n");
    var details := ExtractExpectedReceived(message);
    TestFailure(a.title, FullName(a), file.name, FailureLine(a, message, file.name),
                details.matcherName, details.expected, details.received, CleanErrorMessage(message))
  }

  // ---------------------------------------------------------------------
  // parseJestOutput: the whole report
  // ---------------------------------------------------------------------

  /** What the assertions of `cases` whose status is named `s` are recorded as, in order. */
  function Recorded<T>(file: FileResult, cases: seq<AssertionResult>, s: string,
                       record: (FileResult, AssertionResult) -> T): seq<T>
  {
    if |cases| == 0 then []
    else
      var last := cases[|cases| - 1];
      Recorded(file, cases[..|cases| - 1], s, record) + (if StatusName(last.status) == s then [record(file, last)] else [])
  }

  /** What the assertions of all files whose status is named `s` are recorded as, file by file. */
  function RecordedOf<T>(files: seq<FileResult>, s: string, record: (FileResult, AssertionResult) -> T): seq<T> {
    if |files| == 0 then []
    else
      var last := files[|files| - 1];
      RecordedOf(files[..|files| - 1], s, record) + Recorded(last, last.assertionResults, s, record)
  }

  /** The passes of all files. */
  function PassesOf(files: seq<FileResult>): seq<TestPass> {
    RecordedOf(files, "passed", ToPass)
  }

  /** The failures of all files. */
  function FailuresOf(files: seq<FileResult>): seq<TestFailure> {
    RecordedOf(files, "failed", ToFailure)
  }

  /** JavaScript truthiness of an optional number: present and not zero. */
  predicate Truthy(t: Option<int>) {
    t.Some? && t.value != 0
  }

  /** A file's run time, counted only when both its start and its end time are truthy. */
  function FileDuration(f: FileResult): int {
    if Truthy(f.endTime) && Truthy(f.startTime) then f.endTime.value - f.startTime.value else 0
  }

  /** The summed run time of the files. */
  function Duration(files: seq<FileResult>): int {
    if |files| == 0 then 0 else Duration(files[..|files| - 1]) + FileDuration(files[|files| - 1])
  }

  /** `parseJestOutput` on a decoded report: the summary counters are copied, the lists rebuilt. */
  function ParseReport(report: Report, command: string): (r: TestResults)
    ensures r.command == command && r.success == report.success
    ensures r.summary.total == report.numTotalTests && r.summary.passed == report.numPassedTests
    ensures r.summary.failed == report.numFailedTests && r.summary.skipped == report.numPendingTests
    ensures r.summary.duration == Duration(report.testResults)
    ensures forall p :: p in r.passes <==> IsPassOf(report.testResults, p)
    ensures forall f :: f in r.failures <==> IsFailureOf(report.testResults, f)
    ensures |r.passes| == StatusCount(report.testResults, "passed")
    ensures |r.failures| == StatusCount(report.testResults, "failed")
  {
    PassesAre(report.testResults);
    FailuresAre(report.testResults);
    ListLengths(report.testResults);
    TestResults(command, report.success,
                Summary(report.numTotalTests, report.numPassedTests, report.numFailedTests,
                        report.numPendingTests, Duration(report.testResults)),
                PassesOf(report.testResults), FailuresOf(report.testResults))
  }

  /**
   * `parseJestOutput`: `decode` stands for `JSON.parse` together with the
   * field accesses on its result; `None` is the exception either raises.
   */
  method ParseJestOutput(jsonOutput: string, command: string, decode: string -> Option<Report>)
    returns (r: Option<TestResults>)
    ensures r.None? <==> decode(jsonOutput).None?
    ensures r.Some? ==> r.value == ParseReport(decode(jsonOutput).value, command)
  {
    var decoded := decode(jsonOutput);
    if decoded.None? {
      return None;
    }
    var report := decoded.value;
    var files := report.testResults;
    var passes: seq<TestPass> := [];
    var failures: seq<TestFailure> := [];
    for i := 0 to |files|
      invariant passes == PassesOf(files[..i])
      invariant failures == FailuresOf(files[..i])
    {
      passes, failures := RecordFile(files[i], passes, failures);
      RecordedOfStep(files, i, "passed", ToPass);
      RecordedOfStep(files, i, "failed", ToFailure);
    }
    var duration := 0;
    for i := 0 to |files|
      invariant duration == Duration(files[..i])
    {
      var file := files[i];
      if Truthy(file.endTime) && Truthy(file.startTime) {
        duration := duration + (file.endTime.value - file.startTime.value);
      }
      DurationStep(files, i);
    }
    assert files[..|files|] == files;
    r := Some(TestResults(command, report.success,
                          Summary(report.numTotalTests, report.numPassedTests, report.numFailedTests,
                                  report.numPendingTests, duration),
                          passes, failures));
  }

  /** The inner loop of `parseJestOutput`: one file's assertions appended to the lists, in order. */
  method RecordFile(file: FileResult, passes0: seq<TestPass>, failures0: seq<TestFailure>)
    returns (passes: seq<TestPass>, failures: seq<TestFailure>)
    ensures passes == passes0 + Recorded(file, file.assertionResults, "passed", ToPass)
    ensures failures == failures0 + Recorded(file, file.assertionResults, "failed", ToFailure)
  {
    passes, failures := passes0, failures0;
    var cases := file.assertionResults;
    for k := 0 to |cases|
      invariant passes == passes0 + Recorded(file, cases[..k], "passed", ToPass)
      invariant failures == failures0 + Recorded(file, cases[..k], "failed", ToFailure)
    {
      var a := cases[k];
      RecordedStep(file, cases, k, "passed", ToPass);
      RecordedStep(file, cases, k, "failed", ToFailure);
      if StatusName(a.status) == "passed" {
        passes := passes + [ToPass(file, a)];
      } else if StatusName(a.status) == "failed" {
        failures := failures + [ToFailure(file, a)];
      }
    }
    assert cases[..|cases|] == cases;
  }

  /** Recording one more assertion of a file. */
  lemma RecordedStep<T>(file: FileResult, cases: seq<AssertionResult>, k: nat, s: string,
                        record: (FileResult, AssertionResult) -> T)
    requires k < |cases|
    ensures Recorded(file, cases[..k + 1], s, record) ==
              Recorded(file, cases[..k], s, record) + (if StatusName(cases[k].status) == s then [record(file, cases[k])] else [])
  {
    assert cases[..k + 1][..k] == cases[..k];
  }

  /** Recording one more file. */
  lemma RecordedOfStep<T>(files: seq<FileResult>, i: nat, s: string, record: (FileResult, AssertionResult) -> T)
    requires i < |files|
    ensures RecordedOf(files[..i + 1], s, record) ==
              RecordedOf(files[..i], s, record) + Recorded(files[i], files[i].assertionResults, s, record)
  {
    assert files[..i + 1][..i] == files[..i];
  }

  /** Timing one more file. */
  lemma DurationStep(files: seq<FileResult>, i: nat)
    requires i < |files|
    ensures Duration(files[..i + 1]) == Duration(files[..i]) + FileDuration(files[i])
  {
    assert files[..i + 1][..i] == files[..i];
  }

  // ---------------------------------------------------------------------
  // What the lists hold
  // ---------------------------------------------------------------------

  /** Recording two lists of files records each, in order. */
  lemma {:induction false} RecordedOfAppend<T>(fs: seq<FileResult>, gs: seq<FileResult>, s: string,
                                               record: (FileResult, AssertionResult) -> T)
    ensures RecordedOf(fs + gs, s, record) == RecordedOf(fs, s, record) + RecordedOf(gs, s, record)
    decreases |gs|
  {
    if |gs| == 0 {
      assert fs + gs == fs;
    } else {
      var gs', last := gs[..|gs| - 1], gs[|gs| - 1];
      var tail := Recorded(last, last.assertionResults, s, record);
      calc {
        RecordedOf(fs + gs, s, record);
        { assert (fs + gs)[..|fs + gs| - 1] == fs + gs'; assert (fs + gs)[|fs + gs| - 1] == last; }
        RecordedOf(fs + gs', s, record) + tail;
        { RecordedOfAppend(fs, gs', s, record); }
        RecordedOf(fs, s, record) + RecordedOf(gs', s, record) + tail;
        RecordedOf(fs, s, record) + (RecordedOf(gs', s, record) + tail);
      }
    }
  }

  /** An entry recorded from `cases` is the record of one of its assertions whose status is named `s`. */
  lemma {:induction false} RecordedIff<T>(file: FileResult, cases: seq<AssertionResult>, s: string,
                                          record: (FileResult, AssertionResult) -> T, x: T)
    ensures x in Recorded(file, cases, s, record) <==>
              exists k :: 0 <= k < |cases| && StatusName(cases[k].status) == s && x == record(file, cases[k])
    decreases |cases|
  {
    if |cases| > 0 {
      var init, last := cases[..|cases| - 1], cases[|cases| - 1];
      RecordedIff(file, init, s, record, x);
      assert forall k :: 0 <= k < |init| ==> init[k] == cases[k];
      if x in Recorded(file, cases, s, record) && x !in Recorded(file, init, s, record) {
        assert StatusName(cases[|cases| - 1].status) == s && x == record(file, cases[|cases| - 1]);
      }
    }
  }

  /** An entry recorded from the files is the record of an assertion of one of them whose status is named `s`. */
  lemma {:induction false} RecordedOfIff<T>(files: seq<FileResult>, s: string,
                                            record: (FileResult, AssertionResult) -> T, x: T)
    ensures x in RecordedOf(files, s, record) <==>
              exists i, k :: 0 <= i < |files| && 0 <= k < |files[i].assertionResults| &&
                             StatusName(files[i].assertionResults[k].status) == s &&
                             x == record(files[i], files[i].assertionResults[k])
    decreases |files|
  {
    if |files| > 0 {
      var init, last := files[..|files| - 1], files[|files| - 1];
      RecordedOfIff(init, s, record, x);
      RecordedIff(last, last.assertionResults, s, record, x);
      assert forall i :: 0 <= i < |init| ==> init[i] == files[i];
      if x in RecordedOf(files, s, record) && x !in RecordedOf(init, s, record) {
        var k :| 0 <= k < |last.assertionResults| && StatusName(last.assertionResults[k].status) == s &&
                 x == record(last, last.assertionResults[k]);
        assert files[|files| - 1] == last;
      }
    }
  }

  /** `p` is the pass of some passed assertion of some file. */
  predicate IsPassOf(files: seq<FileResult>, p: TestPass) {
    exists i, k :: 0 <= i < |files| && 0 <= k < |files[i].assertionResults| &&
                   StatusName(files[i].assertionResults[k].status) == "passed" &&
                   p == ToPass(files[i], files[i].assertionResults[k])
  }

  /** `f` is the failure of some failed assertion of some file. */
  predicate IsFailureOf(files: seq<FileResult>, f: TestFailure) {
    exists i, k :: 0 <= i < |files| && 0 <= k < |files[i].assertionResults| &&
                   StatusName(files[i].assertionResults[k].status) == "failed" &&
                   f == ToFailure(files[i], files[i].assertionResults[k])
  }

  lemma PassesAre(files: seq<FileResult>)
    ensures forall p :: p in PassesOf(files) <==> IsPassOf(files, p)
  {
    forall p {
      PassMembership(files, p);
    }
  }

  lemma FailuresAre(files: seq<FileResult>)
    ensures forall f :: f in FailuresOf(files) <==> IsFailureOf(files, f)
  {
    forall f {
      FailureMembership(files, f);
    }
  }

  /** A pass in the results is exactly the pass of some passed assertion of some file. */
  lemma PassMembership(files: seq<FileResult>, p: TestPass)
    ensures p in PassesOf(files) <==>
              exists i, k :: 0 <= i < |files| && 0 <= k < |files[i].assertionResults| &&
                             StatusName(files[i].assertionResults[k].status) == "passed" &&
                             p == ToPass(files[i], files[i].assertionResults[k])
  {
    RecordedOfIff(files, "passed", ToPass, p);
  }

  /** A failure in the results is exactly the failure of some failed assertion of some file. */
  lemma FailureMembership(files: seq<FileResult>, f: TestFailure)
    ensures f in FailuresOf(files) <==>
              exists i, k :: 0 <= i < |files| && 0 <= k < |files[i].assertionResults| &&
                             StatusName(files[i].assertionResults[k].status) == "failed" &&
                             f == ToFailure(files[i], files[i].assertionResults[k])
  {
    RecordedOfIff(files, "failed", ToFailure, f);
  }

  /**
   * An assertion is classified by the name of its status, as the string
   * comparison does: one spelled `OtherStatus("passed")` is still a pass.
   */
  lemma SpelledPassIsRecorded(file: FileResult, a: AssertionResult)
    requires a.status == OtherStatus("passed")
    ensures PassesOf([file.(assertionResults := [a])]) == [ToPass(file.(assertionResults := [a]), a)]
    ensures FailuresOf([file.(assertionResults := [a])]) == []
  {
    var f := file.(assertionResults := [a]);
    assert StatusName(a.status) == "passed";
    assert [f][..0] == [] && [a][..0] == [];
    assert Recorded(f, [a], "passed", ToPass) == [ToPass(f, a)];
    assert Recorded(f, [a], "failed", ToFailure) == [];
    assert RecordedOf([f][..0], "passed", ToPass) == [] && RecordedOf([f][..0], "failed", ToFailure) == [];
    assert PassesOf([f]) == RecordedOf([f][..0], "passed", ToPass) + Recorded(f, [a], "passed", ToPass);
    assert FailuresOf([f]) == RecordedOf([f][..0], "failed", ToFailure) + Recorded(f, [a], "failed", ToFailure);
  }

  /** Canonical decoding changes no classification: names decide, and decoding keeps them. */
  lemma DecodingKeepsClassification(s: Status, name: string)
    ensures StatusName(StatusOf(StatusName(s))) == name <==> StatusName(s) == name
  {
    StatusRoundTrip(StatusName(s), s);
  }

  /** How many assertions of `cases` have the status named `s`. */
  function StatusCountIn(cases: seq<AssertionResult>, s: string): nat {
    if |cases| == 0 then 0
    else StatusCountIn(cases[..|cases| - 1], s) + (if StatusName(cases[|cases| - 1].status) == s then 1 else 0)
  }

  /** How many assertions of all files have the status named `s`. */
  function StatusCount(files: seq<FileResult>, s: string): nat {
    if |files| == 0 then 0
    else StatusCount(files[..|files| - 1], s) + StatusCountIn(files[|files| - 1].assertionResults, s)
  }

  /** How many assertions the files hold. */
  function AssertionCount(files: seq<FileResult>): nat {
    if |files| == 0 then 0
    else AssertionCount(files[..|files| - 1]) + |files[|files| - 1].assertionResults|
  }

  lemma {:induction false} CountsIn<T>(file: FileResult, cases: seq<AssertionResult>, s: string,
                                       record: (FileResult, AssertionResult) -> T)
    ensures |Recorded(file, cases, s, record)| == StatusCountIn(cases, s)
    ensures StatusCountIn(cases, "passed") + StatusCountIn(cases, "failed") <= |cases|
    decreases |cases|
  {
    if |cases| > 0 {
      CountsIn(file, cases[..|cases| - 1], s, record);
    }
  }

  lemma {:induction false} CountsOf<T>(files: seq<FileResult>, s: string, record: (FileResult, AssertionResult) -> T)
    ensures |RecordedOf(files, s, record)| == StatusCount(files, s)
    ensures StatusCount(files, "passed") + StatusCount(files, "failed") <= AssertionCount(files)
    decreases |files|
  {
    if |files| > 0 {
      var last := files[|files| - 1];
      CountsOf(files[..|files| - 1], s, record);
      CountsIn(last, last.assertionResults, s, record);
    }
  }

  /**
   * One pass per passed assertion and one failure per failed one; pending,
   * skipped and todo assertions appear in neither list, so the two lists
   * never hold more entries than there are assertions.
   */
  lemma ListLengths(files: seq<FileResult>)
    ensures |PassesOf(files)| == StatusCount(files, "passed")
    ensures |FailuresOf(files)| == StatusCount(files, "failed")
    ensures |PassesOf(files)| + |FailuresOf(files)| <= AssertionCount(files)
  {
    CountsOf(files, "passed", ToPass);
    CountsOf(files, "failed", ToFailure);
  }

  /**
   * The summary counters are Jest's own and are not checked against the
   * lists: a report claiming three passes with no test files yields three
   * in the summary and no pass in the list.
   */
  lemma SummaryNotReconciled()
    ensures var r := ParseReport(Report(true, 3, 3, 0, 0, []), "npx jest --json");
            r.summary.passed == 3 && r.passes == []
  {
  }

  // ---------------------------------------------------------------------
  // Duration
  // ---------------------------------------------------------------------

  /** The duration of two lists of files is the sum of theirs. */
  lemma {:induction false} DurationAppend(fs: seq<FileResult>, gs: seq<FileResult>)
    ensures Duration(fs + gs) == Duration(fs) + Duration(gs)
    decreases |gs|
  {
    if |gs| == 0 {
      assert fs + gs == fs;
    } else {
      var gs' := gs[..|gs| - 1];
      assert (fs + gs)[..|fs + gs| - 1] == fs + gs';
      DurationAppend(fs, gs');
    }
  }

  /** When no file ends before it starts, the duration is not negative. */
  lemma {:induction false} DurationNonNegative(files: seq<FileResult>)
    requires forall i :: 0 <= i < |files| && files[i].startTime.Some? && files[i].endTime.Some? ==>
                           files[i].startTime.value <= files[i].endTime.value
    ensures Duration(files) >= 0
    decreases |files|
  {
    if |files| > 0 {
      var init := files[..|files| - 1];
      assert forall i :: 0 <= i < |init| ==> init[i] == files[i];
      DurationNonNegative(init);
    }
  }

  /**
   * A file missing either time, or reporting a time of 0, adds nothing to
   * the duration; otherwise it adds its end time minus its start time.
   */
  lemma DurationCountsTruthyTimes(fs: seq<FileResult>, f: FileResult)
    ensures !Truthy(f.startTime) || !Truthy(f.endTime) ==> Duration(fs + [f]) == Duration(fs)
    ensures Truthy(f.startTime) && Truthy(f.endTime) ==>
              Duration(fs + [f]) == Duration(fs) + (f.endTime.value - f.startTime.value)
  {
    assert (fs + [f])[..|fs|] == fs;
  }
}

=== FILE: search.dfy ===
/**
 * Position searches in the order a backtracking regular-expression engine
 * tries alternatives: an unanchored search tries start positions from left to
 * right, and a greedy quantifier gives characters back from right to left.
 */
module Search {
  import opened Wrappers

  /** A successful attempt: where it was made and what it produced. */
  datatype Found<T> = Found(pos: nat, value: T)

  /** The first position in `[lo, hi)`, going up, where `attempt` succeeds. */
  function Leftmost<T>(attempt: nat -> Option<T>, lo: nat, hi: nat): (r: Option<Found<T>>)
    ensures r.None? ==> forall i :: lo <= i < hi ==> attempt(i).None?
    ensures r.Some? ==> lo <= r.value.pos < hi && attempt(r.value.pos) == Some(r.value.value)
    ensures r.Some? ==> forall i :: lo <= i < r.value.pos ==> attempt(i).None?
    decreases hi - lo
  {
    if hi <= lo then None
    else if attempt(lo).Some? then Some(Found(lo, attempt(lo).value))
    else Leftmost(attempt, lo + 1, hi)
  }

  /** The last position in `[lo, hi)`, going down, where `attempt` succeeds. */
  function Rightmost<T>(attempt: nat -> Option<T>, lo: nat, hi: nat): (r: Option<Found<T>>)
    ensures r.None? ==> forall i :: lo <= i < hi ==> attempt(i).None?
    ensures r.Some? ==> lo <= r.value.pos < hi && attempt(r.value.pos) == Some(r.value.value)
    ensures r.Some? ==> forall i :: r.value.pos < i < hi ==> attempt(i).None?
    decreases hi - lo
  {
    if hi <= lo then None
    else if attempt(hi - 1).Some? then Some(Found(hi - 1, attempt(hi - 1).value))
    else Rightmost(attempt, lo, hi - 1)
  }

  /** Once an attempt is known to succeed at `k` and nowhere before it, the leftmost search stops there. */
  lemma LeftmostIs<T>(attempt: nat -> Option<T>, lo: nat, hi: nat, k: nat)
    requires lo <= k < hi && attempt(k).Some?
    requires forall i :: lo <= i < k ==> attempt(i).None?
    ensures Leftmost(attempt, lo, hi) == Some(Found(k, attempt(k).value))
  {
  }

  /** Once an attempt is known to succeed at `k` and nowhere after it, the rightmost search stops there. */
  lemma RightmostIs<T>(attempt: nat -> Option<T>, lo: nat, hi: nat, k: nat)
    requires lo <= k < hi && attempt(k).Some?
    requires forall i :: k < i < hi ==> attempt(i).None?
    ensures Rightmost(attempt, lo, hi) == Some(Found(k, attempt(k).value))
  {
  }
}

=== FILE: test_runner.dfy ===
/**
 * Running Jest for a project: the argument list built from the caller's
 * options and the detected configuration, the command line split for a
 * direct (shell-less) spawn, the collection of the child's output, and the
 * search for the JSON report in either output stream.
 */
module TestRunner {
  import opened Wrappers
  import opened Text
  import opened Host
  import opened JestReport
  import opened ResultParser
  import opened PackageManager
  import opened JestConfig

  /**
   * `RunOptions`. An optional string the caller leaves out is `None`;
   * `verbose` left out is `false` and `extraArgs` left out is empty.
   */
  datatype RunOptions = RunOptions(
    projectPath: string,
    testPattern: Option<string>,
    testNamePattern: Option<string>,
    verbose: bool,
    extraArgs: seq<string>)

  /** `RunResult`: the parsed results, or `None` in debug mode or when no report could be read. */
  datatype RunResult = RunResult(results: Option<TestResults>, stdout: string, stderr: string, exitCode: int)

  /** An optional string in an `if`: given and not empty. */
  predicate Supplied(o: Option<string>) {
    o.Some? && o.value != ""
  }

  // ---------------------------------------------------------------------
  // buildJestArgs and the debug arguments
  // ---------------------------------------------------------------------

  /** `--config <file>` when a configuration file was found. */
  function ConfigArgs(configFile: Option<string>): seq<string> {
    if Supplied(configFile) then ["--config", configFile.value] else []
  }

  /** The test file pattern, when given. */
  function PatternArgs(options: RunOptions): seq<string> {
    if Supplied(options.testPattern) then [options.testPattern.value] else []
  }

  /** `-t <name pattern>`, when given. */
  function NameArgs(options: RunOptions): seq<string> {
    if Supplied(options.testNamePattern) then ["-t", options.testNamePattern.value] else []
  }

  /** The arguments that choose what runs: configuration, file pattern, test-name pattern. */
  function SelectionArgs(options: RunOptions, configFile: Option<string>): seq<string> {
    ConfigArgs(configFile) + PatternArgs(options) + NameArgs(options)
  }

  /** The number of arguments the selection takes. */
  function SelectionSize(options: RunOptions, configFile: Option<string>): nat {
    (if Supplied(configFile) then 2 else 0) + (if Supplied(options.testPattern) then 1 else 0) +
    (if Supplied(options.testNamePattern) then 2 else 0)
  }

  /**
   * `buildJestArgs`: `--json`, the selection, `--verbose` when asked for,
   * then the extra arguments as given.
   */
  function BuildJestArgs(options: RunOptions, configFile: Option<string>): (args: seq<string>)
    ensures |args| == 1 + SelectionSize(options, configFile) + (if options.verbose then 1 else 0) + |options.extraArgs|
    ensures args[0] == "--json"
    ensures Supplied(configFile) ==> args[1] == "--config" && args[2] == configFile.value
    ensures Supplied(options.testPattern) ==>
              args[1 + (if Supplied(configFile) then 2 else 0)] == options.testPattern.value
    ensures Supplied(options.testNamePattern) ==>
              var k := 1 + SelectionSize(options, configFile) - 2;
              args[k] == "-t" && args[k + 1] == options.testNamePattern.value
    ensures options.verbose ==> args[1 + SelectionSize(options, configFile)] == "--verbose"
    ensures args[|args| - |options.extraArgs|..] == options.extraArgs
  {
    ["--json"] + SelectionArgs(options, configFile) + (if options.verbose then ["--verbose"] else []) +
    options.extraArgs
  }

  /**
   * The debug mode's arguments: `--verbose --no-coverage`, the selection,
   * then the extra arguments.
   */
  function DebugArgs(options: RunOptions, configFile: Option<string>): (args: seq<string>)
    ensures |args| == 2 + SelectionSize(options, configFile) + |options.extraArgs|
    ensures args[..2] == ["--verbose", "--no-coverage"]
    ensures args[|args| - |options.extraArgs|..] == options.extraArgs
  {
    ["--verbose", "--no-coverage"] + SelectionArgs(options, configFile) + options.extraArgs
  }

  /**
   * Both modes select the same tests: the debug arguments are the
   * structured-run arguments of the same options without `verbose`, with
   * `--json` traded for `--verbose --no-coverage`.
   */
  lemma DebugArgsShareSelection(options: RunOptions, configFile: Option<string>)
    ensures DebugArgs(options, configFile) ==
              ["--verbose", "--no-coverage"] + BuildJestArgs(options.(verbose := false), configFile)[1..]
  {
    var quiet := options.(verbose := false);
    assert BuildJestArgs(quiet, configFile)[1..] == SelectionArgs(options, configFile) + options.extraArgs by {
      SelectionIgnoresVerbose(options, configFile);
      QuietArgs(quiet, configFile);
    }
    assert DebugArgs(options, configFile) ==
             ["--verbose", "--no-coverage"] + (SelectionArgs(options, configFile) + options.extraArgs) by {
      var sel := SelectionArgs(options, configFile);
      assert ["--verbose", "--no-coverage"] + sel + options.extraArgs ==
               ["--verbose", "--no-coverage"] + (sel + options.extraArgs);
    }
  }

  /** Whether the run is verbose does not change the selection. */
  lemma SelectionIgnoresVerbose(options: RunOptions, configFile: Option<string>)
    ensures SelectionArgs(options.(verbose := false), configFile) == SelectionArgs(options, configFile)
  {
  }

  /** Without `verbose`, the structured run's arguments are `--json`, the selection and the extra arguments. */
  lemma QuietArgs(options: RunOptions, configFile: Option<string>)
    requires !options.verbose
    ensures BuildJestArgs(options, configFile)[1..] == SelectionArgs(options, configFile) + options.extraArgs
  {
  }

  /** An empty pattern counts as no pattern, as in the `if` tests on them. */
  lemma EmptyPatternsAreAbsent(options: RunOptions, configFile: Option<string>)
    requires options.testPattern == Some("") && options.testNamePattern == Some("")
    ensures BuildJestArgs(options, configFile) ==
              BuildJestArgs(options.(testPattern := None, testNamePattern := None), configFile)
    ensures DebugArgs(options, configFile) ==
              DebugArgs(options.(testPattern := None, testNamePattern := None), configFile)
  {
  }

  // ---------------------------------------------------------------------
  // The command line
  // ---------------------------------------------------------------------

  /** What is spawned: a program, its arguments, and the environment it gets. */
  datatype SpawnRequest = SpawnRequest(cmd: string, args: seq<string>, cwd: string, env: Environment)

  /**
   * The child's environment: the server's own, or the server's own with
   * `FORCE_COLOR=0` and `NO_COLOR=1` so that no colour codes reach the report.
   */
  datatype Environment = Inherited | ColourOff

  /**
   * `const [cmd, ...cmdArgs] = execCommand.split(" ")` and
   * `[...cmdArgs, "jest", ...jestArgs]`.
   */
  function CommandLine(exec: string, jestArgs: seq<string>): (argv: seq<string>)
    ensures |argv| == |Split(exec, ' ')| + 1 + |jestArgs|
    ensures argv[..|Split(exec, ' ')|] == Split(exec, ' ')
    ensures argv[|Split(exec, ' ')|] == "jest"
    ensures argv[|Split(exec, ' ')| + 1..] == jestArgs
  {
    Split(exec, ' ') + ["jest"] + jestArgs
  }

  /** `${execCommand} jest ${jestArgs.join(" ")}`: the command reported with the results. */
  function FullCommand(exec: string, jestArgs: seq<string>): string {
    exec + " jest " + Join(jestArgs, " ")
  }

  /**
   * The reported command is the spawned program and its arguments joined
   * with spaces, provided there is at least one Jest argument.
   */
  lemma {:induction false} FullCommandJoinsArgv(exec: string, jestArgs: seq<string>)
    requires |jestArgs| >= 1
    ensures Join(CommandLine(exec, jestArgs), " ") == FullCommand(exec, jestArgs)
  {
    var parts := Split(exec, ' ');
    var tail := Join(jestArgs, " ");
    assert CommandLine(exec, jestArgs) == parts + (["jest"] + jestArgs);
    calc {
      Join(parts + (["jest"] + jestArgs), " ");
      { JoinAppend(parts, ["jest"] + jestArgs, " "); }
      Join(parts, " ") + " " + Join(["jest"] + jestArgs, " ");
      { JoinSplit(exec, ' '); assert [' '] == " "; }
      exec + " " + Join(["jest"] + jestArgs, " ");
      { JoinCons("jest", jestArgs, " "); }
      exec + " " + ("jest" + " " + tail);
      exec + " jest " + tail;
    }
  }

  /**
   * Conversely, when no Jest argument holds a space, splitting the reported
   * command at spaces gives back exactly what was spawned.
   */
  lemma FullCommandSplitsToArgv(exec: string, jestArgs: seq<string>)
    requires |jestArgs| >= 1
    requires forall k :: 0 <= k < |jestArgs| ==> ' ' !in jestArgs[k]
    ensures Split(FullCommand(exec, jestArgs), ' ') == CommandLine(exec, jestArgs)
  {
    var argv := CommandLine(exec, jestArgs);
    var parts := Split(exec, ' ');
    forall k | 0 <= k < |argv|
      ensures ' ' !in argv[k]
    {
      if k > |parts| {
        assert argv[k] == jestArgs[k - |parts| - 1];
      } else if k == |parts| {
        assert argv[k] == "jest";
      } else {
        assert argv[k] == parts[k];
      }
    }
    FullCommandJoinsArgv(exec, jestArgs);
    assert [' '] == " ";
    SplitJoin(argv, ' ');
  }

  // ---------------------------------------------------------------------
  // spawnProcess
  // ---------------------------------------------------------------------

  /** How the child's run ended: its `close` event with its exit code, or an `error` event first. */
  datatype ProcessEnd = Closed(code: Option<int>) | Errored(message: string)

  /** What a spawn yields: all the output collected before the first ending event, and that event. */
  datatype Spawned = Spawned(stdout: string, stderr: string, end: ProcessEnd)

  /** Starting a child process and waiting for it, as an oracle. */
  type Spawner = SpawnRequest -> Spawned

  /** What `spawnProcess` resolves with. */
  datatype ProcessOutput = ProcessOutput(stdout: string, stderr: string, exitCode: int)

  /**
   * `spawnProcess` once the child has ended: a missing exit code counts as
   * 1, and a spawn error is appended to the error output after a newline
   * and also counts as 1.
   */
  function CollectOutput(spawned: Spawned): (out: ProcessOutput)
    ensures out.stdout == spawned.stdout
    ensures |spawned.stderr| <= |out.stderr| && out.stderr[..|spawned.stderr|] == spawned.stderr
    ensures out.stderr == spawned.stderr <==> spawned.end.Closed?
    ensures out.exitCode == 0 <==> spawned.end == Closed(Some(0))
    ensures spawned.end.Closed? && spawned.end.code.Some? ==> out.exitCode == spawned.end.code.value
    ensures spawned.end == Closed(None) || spawned.end.Errored? ==> out.exitCode == 1
    ensures spawned.end.Errored? ==> out.stderr == spawned.stderr + "\n" + spawned.end.message
  {
    match spawned.end
    case Closed(code) => ProcessOutput(spawned.stdout, spawned.stderr, code.OrElse(Some(1)).value)
    case Errored(message) => ProcessOutput(spawned.stdout, spawned.stderr + "\n" + message, 1)
  }

  /** A spawn error's message is the text after the last newline of the reported error output. */
  lemma SpawnErrorReadBack(stdout: string, stderr: string, message: string)
    requires '\n' !in message
    ensures var out := CollectOutput(Spawned(stdout, stderr, Errored(message)));
            LastIndexOf(out.stderr, '\n') == Some(|stderr|) &&
            out.stderr[|stderr| + 1..] == message
  {
    var s := stderr + "\n" + message;
    assert s[|stderr|] == '\n';
    assert forall k :: |stderr| < k < |s| ==> s[k] == message[k - |stderr| - 1];
    var last := LastIndexOf(s, '\n');
    assert last.Some?;
    assert last.value == |stderr|;
    assert s[|stderr| + 1..] == message;
  }

  // ---------------------------------------------------------------------
  // runJestTests and runJestDebug
  // ---------------------------------------------------------------------

  /** `extractJsonFromOutput(stdout) ?? extractJsonFromOutput(stderr)`. */
  function JsonSource(stdout: string, stderr: string): (r: Option<string>)
    ensures HasBracePair(stdout) ==> r == ExtractJsonFromOutput(stdout)
    ensures !HasBracePair(stdout) ==> r == ExtractJsonFromOutput(stderr)
    ensures r.None? <==> !HasBracePair(stdout) && !HasBracePair(stderr)
  {
    ExtractJsonFromOutput(stdout).OrElse(ExtractJsonFromOutput(stderr))
  }

  /** What `runJestTests` spawns for a project with the given configuration. */
  function TestsRequest(options: RunOptions, info: ConfigInfo): (req: SpawnRequest)
    ensures req.cwd == options.projectPath && req.env == ColourOff
    ensures [req.cmd] + req.args == CommandLine(ExecCommand(info.packageManager), BuildJestArgs(options, info.configFile))
  {
    Spawn(CommandLine(ExecCommand(info.packageManager), BuildJestArgs(options, info.configFile)),
          options.projectPath, ColourOff)
  }

  /** `spawn(cmd, cmdArgs, ...)` of a command line `[cmd, ...cmdArgs]`. */
  function Spawn(argv: seq<string>, cwd: string, env: Environment): (req: SpawnRequest)
    requires |argv| >= 1
    ensures [req.cmd] + req.args == argv && req.cwd == cwd && req.env == env
  {
    SpawnRequest(argv[0], argv[1..], cwd, env)
  }

  /**
   * `runJestTests`: detect the configuration, spawn Jest with `--json`,
   * and read the report from standard output, else from standard error.
   * `decode` stands for `JSON.parse` with the reads of the report's fields,
   * `None` where either throws.
   */
  method RunJestTests(options: RunOptions, fs: FileSystem, parse: PackageJsonParser, spawn: Spawner,
                      decode: string -> Option<Report>)
    returns (r: RunResult)
    ensures var info := DetectJestConfig(options.projectPath, fs, parse);
            var req := TestsRequest(options, info);
            var out := CollectOutput(spawn(req));
            var json := JsonSource(out.stdout, out.stderr);
            var command := FullCommand(ExecCommand(info.packageManager), BuildJestArgs(options, info.configFile));
            && r.stdout == out.stdout && r.stderr == out.stderr && r.exitCode == out.exitCode
            && (r.results.Some? <==> json.Some? && decode(json.value).Some?)
            && (r.results.Some? ==> r.results.value == ParseReport(decode(json.value).value, command))
            && (r.results.Some? ==> r.results.value.command == Join([req.cmd] + req.args, " "))
  {
    var info := DetectJestConfig(options.projectPath, fs, parse);
    var exec := ExecCommand(info.packageManager);
    var jestArgs := BuildJestArgs(options, info.configFile);
    var req := TestsRequest(options, info);
    var command := FullCommand(exec, jestArgs);
    var out := CollectOutput(spawn(req));
    var results: Option<TestResults> := None;
    var json := JsonSource(out.stdout, out.stderr);
    if json.Some? {
      results := ParseJestOutput(json.value, command, decode);
    }
    ArgvOfRequest(exec, jestArgs, req);
    return RunResult(results, out.stdout, out.stderr, out.exitCode);
  }

  /** The spawned program and its arguments, put back together, are the reported command. */
  lemma ArgvOfRequest(exec: string, jestArgs: seq<string>, req: SpawnRequest)
    requires |jestArgs| >= 1
    requires [req.cmd] + req.args == CommandLine(exec, jestArgs)
    ensures Join([req.cmd] + req.args, " ") == FullCommand(exec, jestArgs)
  {
    FullCommandJoinsArgv(exec, jestArgs);
  }

  /** What `runJestDebug` spawns: the debug arguments, in the server's own environment. */
  function DebugRequest(options: RunOptions, info: ConfigInfo): (req: SpawnRequest)
    ensures req.cwd == options.projectPath && req.env == Inherited
    ensures [req.cmd] + req.args == CommandLine(ExecCommand(info.packageManager), DebugArgs(options, info.configFile))
  {
    Spawn(CommandLine(ExecCommand(info.packageManager), DebugArgs(options, info.configFile)),
          options.projectPath, Inherited)
  }

  /** `runJestDebug`: spawn Jest verbosely and hand back its raw output, with no results. */
  function RunJestDebug(options: RunOptions, fs: FileSystem, parse: PackageJsonParser, spawn: Spawner): (r: RunResult)
    ensures r.results.None?
    ensures var out := CollectOutput(spawn(DebugRequest(options, DetectJestConfig(options.projectPath, fs, parse))));
            r.stdout == out.stdout && r.stderr == out.stderr && r.exitCode == out.exitCode
  {
    var out := CollectOutput(spawn(DebugRequest(options, DetectJestConfig(options.projectPath, fs, parse))));
    RunResult(None, out.stdout, out.stderr, out.exitCode)
  }

  /**
   * Both modes start the same program in the same directory; only the Jest
   * arguments and the environment differ.
   */
  lemma ModesSpawnSameProgram(options: RunOptions, info: ConfigInfo)
    ensures TestsRequest(options, info).cmd == DebugRequest(options, info).cmd
    ensures TestsRequest(options, info).cwd == DebugRequest(options, info).cwd
    ensures TestsRequest(options, info).env != DebugRequest(options, info).env
  {
    var exec := ExecCommand(info.packageManager);
    var a := CommandLine(exec, BuildJestArgs(options, info.configFile));
    var b := CommandLine(exec, DebugArgs(options, info.configFile));
    assert a[0] == Split(exec, ' ')[0] == b[0];
  }
}

=== FILE: text.dfy ===
/**
 * The JavaScript string primitives the system relies on, over `seq<char>`:
 * the character classes of its regular expressions, `indexOf`/`lastIndexOf`,
 * `Array.prototype.join`, `String.prototype.split`, `trim` and `parseInt`.
 */
module Text {
  import opened Wrappers

  /** ECMAScript LineTerminator: the characters `.` does not match. */
  predicate IsLineTerminator(c: char) {
    c == '\n' || c == '\r' || c == '\U{2028}' || c == '\U{2029}'
  }

  /** ECMAScript WhiteSpace or LineTerminator: the class `\s`, and what `trim` removes. */
  predicate IsSpace(c: char) {
    || IsLineTerminator(c)
    || c == '\t' || c == '\U{B}' || c == '\U{C}' || c == ' ' || c == '\U{A0}' || c == '\U{FEFF}'
    || c == '\U{1680}' || ('\U{2000}' <= c <= '\U{200A}') || c == '\U{202F}' || c == '\U{205F}' || c == '\U{3000}'
  }

  /** The class `\d` (no Unicode flag: ASCII digits only). */
  predicate IsDigit(c: char) {
    '0' <= c <= '9'
  }

  /** The class `\w`: `[A-Za-z0-9_]`. */
  predicate IsWordChar(c: char) {
    ('a' <= c <= 'z') || ('A' <= c <= 'Z') || IsDigit(c) || c == '_'
  }

  /** Any character `.` matches. */
  predicate NotLineTerminator(c: char) {
    !IsLineTerminator(c)
  }

  /** `s.indexOf(c)`: the first index holding `c`. */
  function IndexOf(s: string, c: char): (r: Option<nat>)
    ensures r.None? <==> c !in s
    ensures r.Some? ==> r.value < |s| && s[r.value] == c && c !in s[..r.value]
    ensures r.Some? ==> forall k :: 0 <= k < r.value ==> s[k] != c
  {
    if |s| == 0 then None
    else if s[0] == c then Some(0)
    else match IndexOf(s[1..], c)
      case None => None
      case Some(i) =>
        assert s[..i + 1] == [s[0]] + s[1..][..i];
        Some(i + 1)
  }

  /** `s.lastIndexOf(c)`: the last index holding `c`. */
  function LastIndexOf(s: string, c: char): (r: Option<nat>)
    ensures r.None? <==> c !in s
    ensures r.Some? ==> r.value < |s| && s[r.value] == c && c !in s[r.value + 1..]
    ensures r.Some? ==> forall k :: r.value < k < |s| ==> s[k] != c
  {
    if |s| == 0 then None
    else if s[|s| - 1] == c then Some(|s| - 1)
    else
      var init := s[..|s| - 1];
      assert s == init + [s[|s| - 1]];
      match LastIndexOf(init, c)
      case None => None
      case Some(i) =>
        assert s[i + 1..] == init[i + 1..] + [s[|s| - 1]];
        Some(i)
  }

  /**
   * The end of the longest run of characters satisfying `inRun` that starts
   * at `i`: where a greedy `[...]*` stops.
   */
  function RunEnd(s: string, i: nat, inRun: char -> bool): (j: nat)
    requires i <= |s|
    ensures i <= j <= |s|
    ensures forall k :: i <= k < j ==> inRun(s[k])
    ensures j < |s| ==> !inRun(s[j])
    decreases |s| - i
  {
    if i == |s| || !inRun(s[i]) then i else RunEnd(s, i + 1, inRun)
  }

  /** A run is determined by its characters: any `j` bounding a maximal run from `i` is `RunEnd`. */
  lemma RunEndIs(s: string, i: nat, inRun: char -> bool, j: nat)
    requires i <= j <= |s|
    requires forall k :: i <= k < j ==> inRun(s[k])
    requires j < |s| ==> !inRun(s[j])
    ensures RunEnd(s, i, inRun) == j
  {
  }

  /** The start of the longest run of characters satisfying `inRun` that ends at `j`, not going below `lo`. */
  function RunStart(s: string, lo: nat, j: nat, inRun: char -> bool): (i: nat)
    requires lo <= j <= |s|
    ensures lo <= i <= j
    ensures forall k :: i <= k < j ==> inRun(s[k])
    ensures lo < i ==> !inRun(s[i - 1])
    decreases j - lo
  {
    if j == lo || !inRun(s[j - 1]) then j else RunStart(s, lo, j - 1, inRun)
  }

  /** The end of the line that contains position `i`: the first line terminator at or after `i`. */
  function LineEnd(s: string, i: nat): (j: nat)
    requires i <= |s|
    ensures i <= j <= |s|
    ensures forall k :: i <= k < j ==> !IsLineTerminator(s[k])
    ensures j < |s| ==> IsLineTerminator(s[j])
  {
    RunEnd(s, i, NotLineTerminator)
  }

  /** `s.trim()`: `s` without its leading and trailing whitespace. */
  function Trim(s: string): (r: string)
    ensures |r| <= |s|
    ensures r == [] || (!IsSpace(r[0]) && !IsSpace(r[|r| - 1]))
    ensures r == [] <==> forall k :: 0 <= k < |s| ==> IsSpace(s[k])
  {
    var i := RunEnd(s, 0, IsSpace);
    var j := RunStart(s, i, |s|, IsSpace);
    assert i < j ==> !IsSpace(s[j - 1]) by {
      if i < j && j == |s| {
        assert !IsSpace(s[i]);
      }
    }
    s[i..j]
  }

  /**
   * `Trim` removes exactly the surrounding whitespace: whenever `s[i..j]` is
   * flanked by whitespace only and is empty or bounded by non-whitespace,
   * it is the trimmed string.
   */
  lemma TrimIs(s: string, i: nat, j: nat)
    requires i <= j <= |s|
    requires forall k :: 0 <= k < i ==> IsSpace(s[k])
    requires forall k :: j <= k < |s| ==> IsSpace(s[k])
    requires i < j ==> !IsSpace(s[i]) && !IsSpace(s[j - 1])
    requires i == j ==> forall k :: 0 <= k < |s| ==> IsSpace(s[k])
    ensures Trim(s) == s[i..j]
  {
    if i < j {
      RunEndIs(s, 0, IsSpace, i);
    }
  }

  /** A string without surrounding whitespace is its own trim. */
  lemma TrimmedIsFixed(s: string)
    requires |s| > 0 && !IsSpace(s[0]) && !IsSpace(s[|s| - 1])
    ensures Trim(s) == s
  {
    TrimIs(s, 0, |s|);
    assert s[0..|s|] == s;
  }

  /** `part` occurs in `s` at `i`. */
  predicate OccursAt(s: string, i: nat, part: string) {
    i + |part| <= |s| && s[i..i + |part|] == part
  }

  /** `parts.join(sep)`. */
  function Join(parts: seq<string>, sep: string): string {
    if |parts| == 0 then ""
    else if |parts| == 1 then parts[0]
    else parts[0] + sep + Join(parts[1..], sep)
  }

  /** `s.split(c)` for a one-character separator: the pieces between occurrences of `c`. */
  function Split(s: string, c: char): (r: seq<string>)
    ensures |r| >= 1
    ensures forall k :: 0 <= k < |r| ==> c !in r[k]
    decreases |s|
  {
    match IndexOf(s, c)
    case None => [s]
    case Some(i) => [s[..i]] + Split(s[i + 1..], c)
  }

  /** Splitting at an occurrence of the separator after a separator-free prefix. */
  lemma SplitAfter(a: string, c: char, b: string)
    requires c !in a
    ensures Split(a + [c] + b, c) == [a] + Split(b, c)
  {
    var s := a + [c] + b;
    assert c in s by { assert s[|a|] == c; }
    var i := IndexOf(s, c).value;
    assert forall k :: 0 <= k < |a| ==> s[k] == a[k];
    assert forall k :: 0 <= k < i ==> s[..i][k] == s[k];
    assert s[|a|] == c;
    assert i == |a|;
    assert s[..i] == a;
    assert s[i + 1..] == b;
  }

  /** One step of `Split` at the first separator. */
  lemma SplitUnfold(s: string, c: char, i: nat)
    requires IndexOf(s, c) == Some(i)
    ensures Split(s, c) == [s[..i]] + Split(s[i + 1..], c)
  {
  }

  /** Joining a non-empty list after a first piece puts one separator between them. */
  lemma JoinCons(x: string, ys: seq<string>, sep: string)
    requires |ys| >= 1
    ensures Join([x] + ys, sep) == x + sep + Join(ys, sep)
  {
    assert ([x] + ys)[1..] == ys;
  }

  /** Joining two non-empty lists puts one separator between their joins. */
  lemma {:induction false} JoinAppend(xs: seq<string>, ys: seq<string>, sep: string)
    requires |xs| >= 1 && |ys| >= 1
    ensures Join(xs + ys, sep) == Join(xs, sep) + sep + Join(ys, sep)
    decreases |xs|
  {
    if |xs| == 1 {
      JoinCons(xs[0], ys, sep);
    } else {
      JoinAppend(xs[1..], ys, sep);
      assert xs + ys == [xs[0]] + (xs[1..] + ys);
      JoinCons(xs[0], xs[1..] + ys, sep);
      JoinCons(xs[0], xs[1..], sep);
      assert xs == [xs[0]] + xs[1..];
    }
  }

  /** Joining the pieces with the separator gives back the string. */
  lemma {:induction false} JoinSplit(s: string, c: char)
    ensures Join(Split(s, c), [c]) == s
    decreases |s|
  {
    var found := IndexOf(s, c);
    if found.Some? {
      var i := found.value;
      var head, rest := s[..i], s[i + 1..];
      JoinSplit(rest, c);
      var tail := Split(rest, c);
      SplitUnfold(s, c, i);
      JoinCons(head, tail, [c]);
      calc {
        Join(Split(s, c), [c]);
        Join([head] + tail, [c]);
        head + [c] + Join(tail, [c]);
        head + [c] + rest;
        { assert s == head + [c] + rest; }
        s;
      }
    }
  }

  /** Splitting a join of separator-free pieces gives back the pieces. */
  lemma {:induction false} SplitJoin(parts: seq<string>, c: char)
    requires |parts| >= 1
    requires forall k :: 0 <= k < |parts| ==> c !in parts[k]
    ensures Split(Join(parts, [c]), c) == parts
    decreases |parts|
  {
    if |parts| == 1 {
      assert Split(parts[0], c) == [parts[0]];
    } else {
      SplitJoin(parts[1..], c);
      SplitAfter(parts[0], c, Join(parts[1..], [c]));
      assert parts == [parts[0]] + parts[1..];
    }
  }

  /** The value of a digit character. */
  function DigitValue(c: char): (d: nat)
    requires IsDigit(c)
    ensures d < 10
  {
    (c - '0') as nat
  }

  /** The digit character for a value below ten. */
  function DigitChar(d: nat): (c: char)
    requires d < 10
    ensures IsDigit(c) && DigitValue(c) == d
  {
    (d + '0' as nat) as char
  }

  predicate AllDigits(s: string) {
    forall k :: 0 <= k < |s| ==> IsDigit(s[k])
  }

  /** `parseInt(ds, 10)` of a string of decimal digits, as an unbounded number. */
  function DecimalValue(ds: string): nat
    requires AllDigits(ds)
  {
    if |ds| == 0 then 0 else 10 * DecimalValue(ds[..|ds| - 1]) + DigitValue(ds[|ds| - 1])
  }

  /** The decimal numeral of `n`, as `String(n)` writes it. */
  function DecimalString(n: nat): (ds: string)
    ensures |ds| >= 1 && AllDigits(ds)
  {
    if n < 10 then [DigitChar(n)] else DecimalString(n / 10) + [DigitChar(n % 10)]
  }

  /** Reading a written numeral gives back its number. */
  lemma {:induction false} DecimalRoundTrip(n: nat)
    ensures DecimalValue(DecimalString(n)) == n
  {
    if n >= 10 {
      DecimalRoundTrip(n / 10);
      var ds := DecimalString(n);
      assert ds[..|ds| - 1] == DecimalString(n / 10);
    }
  }
}

=== FILE: wrappers.dfy ===
/** The optional value used wherever the system returns `null` or may be `undefined`. */
module Wrappers {

  datatype Option<+T> = None | Some(value: T) {

    /** The `??` operator: this value unless it is absent. */
    function OrElse(other: Option<T>): Option<T> {
      if Some? then this else other
    }
  }
}
